=== FILE: README.md ===
# Customer registration: a Dafny model of the registry core

The Customer-Registration-System is a console program. It keeps a list of
clients in one JSON file (`clients.json`). Each client is an object with five
text fields, in this fixed order:

- `name`, `last_name`: a name;
- `id`: a national id such as `V-12345678`;
- `email`;
- `phone`: an international number.

Before a value is stored, it must fully match its field's format rule. An id
must also be unique in the file, except that a client may keep its own id.
The program creates, searches, updates and deletes clients. Each change loads
the whole list, changes it in memory and writes the whole list back.

This project models that core and proves what it promises:

| file | module | what it holds |
|---|---|---|
| `wrappers.dfy` | `Wrappers` | `Option` |
| `text.dfy` | `Text` | the Python string builtins used, with their laws: `strip` on ASCII whitespace, `lower` on ASCII letters only, substring `in`, `join` |
| `seqs.dfy` | `Seqs` | order-keeping filters (list comprehensions) and subsequences |
| `pattern.dfy` | `Pattern` | the small regular-expression fragment the format rules use, with `re.fullmatch` and `re.search` meaning |
| `schema.dfy` | `Schema` | `REGEX_FIELDS`: the five fields in order, their rules, their captions; each rule proved equal to a plain predicate over the string |
| `store.dfy` | `Store` | the client record, the data file, `load_clients` and `save_clients` |
| `validator.dfy` | `Validator` | `is_id_unique`, `validate_regex`, `validate_field`, `get_valid_data` |
| `search.dfy` | `Search` | `find_matches` |
| `lifecycle.dfy` | `Lifecycle` | the load, change and save cycles of `create_client`, `delete_client` and `update_client` |

## How things are modelled

- **Client.** A client is a map from key to value. A record read back from
  the file is trusted as it is, so it may lack schema keys (search reads a
  missing one as `''`) or carry others (update keeps them). Create always
  builds exactly the five schema keys.
- **File.** The data file is `Missing`, `Corrupt` (present but not valid
  JSON) or a `Document` holding a list. `Load` reads the first two as the
  empty list. Files that cannot be read at all are not modelled (see
  "Left out").
- **Save.** `Save` takes a `SaveFault`, which stands for what the operating
  system does:
  - With no fault, the next load returns exactly the saved list.
  - If the file cannot be opened, the file is left as it was.
  - If the write fails after opening, the file is left `Corrupt`, because
    opening it for writing has already emptied it.
  - A failed save is reported and never raised.
- **Operation results.** Every operation takes the file and returns a `Step`.
  A `Step` holds the file afterwards, whether a write happened (and what the
  save reported), and the operation's outcome.
- **Console input.** Input is an explicit list of typed lines. The retry
  loop of `get_valid_data` takes the first line that is accepted once
  stripped. When the list runs out with every line rejected, the input is
  exhausted. The source would keep prompting instead; here the operation
  ends without writing anything.
- **Update menu.** Each menu line arrives already classified:
  - `SaveChanges`: the line was `6` once stripped (so ` 6 ` saves);
  - `Discard`: the line was `7` once stripped;
  - `Pick(n, attempts)`: a line that `int()` parses to `n`, with the lines
    then typed for that field;
  - `NotANumber`: a line that `int()` does not parse.

  The source strips the line, then compares it with `'6'` and `'7'`
  before it parses a number. So a line such as `06` is `Pick(6, …)`, an invalid field number
  that is ignored. It does not save.
- **Format rules.**
  - A pattern is a sequence of atoms. Each atom is a character class with a
    repetition count.
  - `Match` is `re.fullmatch`: the string must split into one run per atom.
  - Each of the four rules is proved equivalent to a hand-written predicate
    (`ValidName`, `ValidId`, `ValidEmail`, `ValidPhone`).
  - The accented letters that the name rule admits are a fixed set of twelve
    letters: á é í ó ú Á É Í Ó Ú ñ Ñ. Nothing in the model depends on which
    code points they are.

## Model

| member | source | states |
|---|---|---|
| Schema.Keys | data_manager.py:9-15 | the field keys, in the order create asks for them, search joins them and the update menu numbers them, are name, last_name, id, email, phone |
| Schema.Lookup | client_actions.py:55-57 | `REGEX_FIELDS.get(key)` finds an entry exactly when the key is one of the five, and the entry found carries that key |
| Schema.SchemaOrder | data_manager.py:9-15 | no key occurs twice in the schema, and the id entry is the third one |
| Schema.NameRule | data_manager.py:10-11 | a string fully matches the name rule iff it has 2 to 30 characters, each an ASCII letter, an accented letter, whitespace, `'` or `-` |
| Schema.IdRule | data_manager.py:12 | a string fully matches the id rule iff it is one of V, E, J, G, P, then `-`, then 7 to 9 digits (so its length is 9 to 11) |
| Schema.EmailRule | data_manager.py:13 | a string fully matches the email rule iff it splits into a non-empty local part of `[a-zA-Z0-9._%+-]`, `@`, a non-empty domain of `[a-zA-Z0-9.-]`, `.`, and 2 to 4 ASCII letters |
| Schema.EmailShape | data_manager.py:13 | in a valid email the `@` found by the split is the only `@`, no `.` follows the final dot, and the `@` comes before that dot |
| Schema.PhoneRule | data_manager.py:14 | a string fully matches the phone rule iff it is `+` followed by 10 to 15 digits (so its length is 11 to 16) |
| Schema.PartialMatchRejected | client_actions.py:46 | `V-1234567x` contains a match of the id rule and is still rejected, and so is `xV-1234567`: only a full match counts |
| Pattern.Match | client_actions.py:46 | `re.fullmatch`: the string splits into consecutive runs, one per atom, each run's length within the atom's repetition bounds and every character in the atom's class |
| Store.Load | data_manager.py:19-34 | a missing file, or one that is not valid JSON, loads as the empty list; only a document yields clients |
| Store.Save | data_manager.py:36-42 | the save prints an error exactly when it failed; after a successful save, loading returns exactly the saved list; a save that could not open the file leaves the file as it was; one that failed while writing leaves nothing that loads, so any failed save leaves the old list or nothing, and it is reported, not raised |
| Validator.ScanIds | client_actions.py:36-41 | the loop over the stored clients fails exactly when some client holds the id and the id is not the caller's current id |
| Validator.IsIdUnique | client_actions.py:33-41 | `is_id_unique(id, current)` is false iff a stored client has that id and `id != current` |
| Validator.ValidateRegex | client_actions.py:43-51 | for each schema rule, `validate_regex` accepts exactly the values that satisfy that rule's plain predicate |
| Validator.ValidateField | client_actions.py:53-66 | an unknown key is rejected. Otherwise a value breaking its rule is rejected with that field's caption, whatever the file holds. A well-formed id already stored and different from the current id is rejected as a duplicate. The value is accepted iff it conforms and, for the id field only, is not stored or equals the current id |
| Validator.UniquenessOnlyForId | client_actions.py:59-64 | for every key but `id` the verdict does not depend on the file: only the id field consults the store |
| Validator.OwnIdPasses | client_actions.py:62-64 | re-entering a client's own id passes exactly when it is well-formed, whatever the store holds |
| Validator.NewIdChecked | client_actions.py:62-64 | with no current id, a well-formed id is a duplicate iff it is stored and accepted iff it is not |
| Validator.FirstAccepted | client_actions.py:70-73 | the retry loop stops at the first typed line that is accepted once stripped; every earlier line was rejected, and when it finds none, every line was rejected |
| Validator.GetValidData | client_actions.py:68-73 | the result is absent iff every typed line is rejected; otherwise it is accepted and is the first accepted typed line, stripped |
| Validator.GetValidDataTyped | client_actions.py:68-73 | conversely, when the first accepted typed line, stripped, is v, the retry loop returns v |
| Text.StripSpec | client_actions.py:71 | `strip()` returns a slice of its input with only whitespace removed from either end |
| Text.StripLowerCommute | client_actions.py:114 | stripping then lowering equals lowering then stripping |
| Search.FieldValues | client_actions.py:116 | the values searched are the five field values in schema order, `''` for a missing one |
| Search.SearchText | client_actions.py:116 | the text searched has no upper-case ASCII letter and contains every field value, lowercased |
| Search.Normalize | client_actions.py:114 | the criterion compared has no upper-case ASCII letter and no whitespace at either end, and stripping and lowering give it in either order |
| Search.IsHit | client_actions.py:117 | a client is a hit iff the normalised criterion occurs in its search text |
| Search.FindMatches | client_actions.py:111-119 | the result is a subsequence of the input: order kept, and each client appears as often as in the input when its lowercased joined field text contains the stripped, lowercased criterion, and not at all otherwise |
| Search.CaseInsensitive | client_actions.py:114-117 | two criteria that differ only in ASCII letter case find the same clients |
| Search.StripInsensitive | client_actions.py:114 | whitespace around the criterion does not change the result |
| Search.SearchIdempotent | client_actions.py:111-119 | searching the results again with the same criterion returns them all |
| Search.SearchAppend | client_actions.py:115-118 | searching two lists one after the other gives the concatenation of the two searches |
| Search.FieldHit | client_actions.py:116-117 | a client with one field that contains the criterion, ignoring case, is found |
| Search.BlankCriterion | client_actions.py:114-117 | a criterion that is blank once stripped finds every client |
| Seqs.FilterSpec | client_actions.py:197 | a list comprehension with a condition keeps a subsequence: each element as often as in the input when it passes the condition, and not at all otherwise |
| Seqs.FilterShorter | client_actions.py:197-199 | the filtered list is strictly shorter iff some element fails the condition; if none fails, it is the whole list |
| Lifecycle.Collect | client_actions.py:85-96 | the field loop either gathers one value per field, each accepted by that field's test, or stops at a field whose typed lines were all rejected |
| Lifecycle.CollectTypedFirst | client_actions.py:85-96 | each gathered value is the first line typed for its field that was accepted, stripped |
| Lifecycle.Assemble | client_actions.py:82-96 | the dictionary built has exactly the keys asked for, and with distinct keys each key holds the value gathered for it |
| Lifecycle.NewClientRegistrable | client_actions.py:82-96 | a client built from accepted values has exactly the five schema keys, every value conforms to its rule, and its id is not stored |
| Lifecycle.Create | client_actions.py:77-107 | create writes iff every field got a value. A created client has exactly the five schema keys, conforming values and an id not yet stored. After a successful save, the stored list is the old list with the new client appended at the end. The welcome request carries the client's phone and name. Input that runs out leaves the file untouched. A write reports an error iff the save failed, and the client is reported created either way; a refused open leaves the file as it was, a failed write leaves nothing that loads |
| Lifecycle.CreateDecides | client_actions.py:85-101 | create builds a client (and goes on to save it) iff, for every field in schema order, at least one typed line is accepted by that field's test; when input runs out, it runs out at the first field all of whose lines were rejected |
| Lifecycle.CreateValuesTyped | client_actions.py:92-96 | each field of a created client holds the first line typed for it that was accepted, stripped |
| Lifecycle.CreateRejectsStoredIds | client_actions.py:85-101 | if every line typed for the id is an id already stored, create never appends or writes |
| Lifecycle.CreateKeepsIdsUnique | client_actions.py:98-101 | if no two stored clients share an id before a create, none do after it |
| Lifecycle.Confirmed | client_actions.py:190-192 | a delete goes ahead iff the answer, stripped and lowercased, is `yes` |
| Lifecycle.ConfirmedSpellings | client_actions.py:190-192 | the answers that confirm are exactly the eight case spellings of `yes`, with any surrounding whitespace |
| Lifecycle.Remaining | client_actions.py:197 | the clients kept are a subsequence of the stored ones: none has the target id, and every client without it keeps its multiplicity |
| Lifecycle.Delete | client_actions.py:186-203 | delete cancels iff the stripped, lowercased answer is not `yes`, and then writes nothing. It deletes iff the answer is `yes` and some stored client has the target id. Only then does it write. After a successful save, the list is a subsequence of the old one: every client without the target id keeps its multiplicity, every client with it is gone, and the reported count is the new, strictly smaller length. A write reports an error iff the save failed; a refused open leaves the file as it was, a failed write leaves nothing that loads |
| Lifecycle.DeleteRemovesAll | client_actions.py:197 | after a delete that saved, no stored client has the deleted id |
| Lifecycle.DeleteTwice | client_actions.py:196-203 | deleting the same client again finds nothing and leaves the file untouched |
| Lifecycle.DeleteKeepsIdsUnique | client_actions.py:196-200 | if stored ids were unique before a delete, they are unique after it |
| Lifecycle.EditSession | client_actions.py:215-259 | a session that commits has met a `6` before any `7`, one that discards has met a `7` before any `6`; a commit keeps every key of the working copy it started with |
| Lifecycle.SessionOutcome | client_actions.py:215-259 | the session commits iff it reaches a `6` before any `7` with no pick before it whose typed lines are all rejected; it discards iff the same holds for a `7` |
| Lifecycle.EditOnce | client_actions.py:233-256 | a pick outside 1 to 5 changes nothing. A pick in range fails iff every typed line is rejected by that field's test; otherwise it sets that field, and only that field, to the first accepted line, stripped |
| Lifecycle.SessionFrame | client_actions.py:215-256 | a field that no in-range pick names keeps its value in a committed session |
| Lifecycle.EditAccepted | client_actions.py:247-250 | an accepted edit value conforms to its field's rule, and an accepted id equals the client's original id or is not stored |
| Lifecycle.EditStep | client_actions.py:249-252 | one accepted edit keeps the working copy's keys, adds only schema keys, and leaves each field unchanged or conforming, with the id original or unstored |
| Lifecycle.EditOnceEdits | client_actions.py:233-256 | one numbered pick keeps that relation to the client selected, whether it edits a field or is ignored as out of range |
| Lifecycle.SessionEdits | client_actions.py:215-259 | whatever the menu session did, a committed working copy stands in that relation to the client it started from |
| Lifecycle.FirstIndex | client_actions.py:264-267 | the position found holds a client with the target id and no earlier one does; there is no position exactly when no client has the id |
| Lifecycle.ReplaceFirst | client_actions.py:262-267 | the commit loop keeps the length, puts the edited client at the first position with the original id and changes nothing else; without such a position the list is unchanged |
| Lifecycle.Update | client_actions.py:207-270 | update writes iff the session committed; a discard (`7`) or input that runs out leaves the file untouched. After a successful save, the list has the same length, the first client with the selected client's original id is replaced at its index by the edited copy, and every other entry is unchanged, so a list without that id is saved back as it was. A cancel is reported iff the session met a `7`, and input running out is reported apart from it. A write reports an error iff the save failed; a refused open leaves the file as it was, a failed write leaves nothing that loads |
| Lifecycle.UpdateWrites | client_actions.py:207-270 | update writes the file iff the menu session reaches a `6` before any `7` and no pick before it has all its typed lines rejected |
| Lifecycle.UpdateCancels | client_actions.py:215-259 | update reports a cancel iff the menu session reaches a `7` before any `6` and no pick before it has all its typed lines rejected |
| Lifecycle.UpdateEdits | client_actions.py:215-259 | a committed update's client keeps the selected client's keys, adds only schema keys, has each field unchanged or conforming, and keeps its original id or has one not stored |
| Lifecycle.ReplaceKeepsIdsUnique | client_actions.py:264-267 | replacing a stored client by one that keeps its id or brings an unstored id keeps ids unique |
| Lifecycle.UpdateKeepsIdsUnique | client_actions.py:207-270 | if no two stored clients share an id before an update, none do after it |
| Lifecycle.FirstIndexUnique | client_actions.py:264-267 | when ids are unique, a stored client with an id is the first one with it, so the commit replaces that very record |
| Lifecycle.UpdateKeepsUnpicked | client_actions.py:215-259 | a saved update keeps every field of the selected client that no pick named |
| Lifecycle.UpdateSetsField | client_actions.py:233-259 | picking field k, typing lines whose first accepted one is v, then `6` saves the selected client with field k set to v and nothing else changed |
| Lifecycle.OwnIdEditAccepted | client_actions.py:247-250 | during an update, retyping the client's own well-formed id is accepted although that id is stored |
| Lifecycle.UpdateRetypesOwnId | client_actions.py:233-259 | picking the id, retyping the client's own id and saving stores the client unchanged |
| Lifecycle.UpdateUnchanged | client_actions.py:226-227 | when stored ids are unique, selecting a stored client and saving straight away reports success and writes back exactly the list that was stored |
| Lifecycle.UpdateRenames | client_actions.py:247-269 | when stored ids are unique, after a client's id is changed and saved, the new id is stored and the old one is gone |
| Lifecycle.UpdateFirstOfDuplicates | client_actions.py:264-267 | with two stored clients sharing an id, saving the second one's update overwrites the first: the second is stored twice and the first is lost |

## Left out

- `send_whatsapp_welcome` (client_actions.py:8-28): it calls a browser
  automation library and affects no stored state. Create only returns the
  welcome request (phone, name) it would hand over.
- The console: prompts, prompt labels, success and error messages,
  `display_results`, `clear_screen`, and the menu and selection loops of
  `search_client` and app.py. The model keeps no output text except the
  caption of a broken rule and the reason a value was rejected.
- The menu line parsing itself, i.e. which texts `int()` accepts. The model
  starts from the classified `Command`.
- `get_valid_data` reads input forever: the model uses a finite list of
  typed lines, and running out ends the operation without writing.
- JSON encoding and file handles: the file is the three-state `File`. JSON
  documents that are not a list of string-valued objects are not modelled,
  and neither is the order of keys inside a stored object.
- Store.Load: the model does not say what happens when the file exists but
  cannot be read. `load_clients` catches only `FileNotFoundError` and
  `JSONDecodeError`. A file that is not UTF-8 (`UnicodeDecodeError`), one
  without read permission (`PermissionError`) and a directory
  (`IsADirectoryError`) all raise out of the caller. The model has no state
  for such a file.
- Unicode: `lower()`, `strip()`, `\s` and `\d` are modelled on ASCII only.
  Python applies them to all of Unicode. For example, non-ASCII digits match
  `\d`, so the model's rules reject some exotic values Python accepts.
- Search.CaseInsensitive: letter case is ignored for ASCII letters only.
  Python's `lower()` also folds the accented capitals that the name rule
  admits (Á É Í Ó Ú Ñ). So Python finds a stored `Ángel` with the criterion
  `ángel`, and the model does not.
- Several processes editing the file at once: the program is single-process.
  The file is assumed not to change between a validation and the save that
  follows it.
- `update_client` changes the selected dictionary in place, and so does its
  caller's copy. The model works on a value copy; only the saved list is
  observable.

## Behaviour of the code worth knowing

The model follows the code as written in each of these cases:

- **Failed write.** `save_clients` opens the file with mode `'w'`, which
  empties it, before `json.dump` runs (data_manager.py:39-40). If the dump
  then fails, the old list is gone. `Store.Save` leaves the file `Corrupt` on
  a write failure, and the next load reads it as empty.
- **Success announced after a failed save.** `save_clients` catches
  every error and only prints it (data_manager.py:41-42). Create, delete
  and update then print their success message anyway
  (client_actions.py:104, 201, 270). In the model the outcomes `Created`,
  `Deleted` and `UpdateSaved` do not depend on the save fault; only the
  write's report and the file do. `Lifecycle.Create`,
  `Lifecycle.Delete` and `Lifecycle.Update` state what the file holds
  after each kind of failure.
- **Update with no matching id.** When no stored client has the selected
  client's id, the commit loop replaces nothing. The code then saves the
  unchanged list and reports success (client_actions.py:262-270).
  `Lifecycle.Update` states exactly that.
- **Update with duplicated ids.** The commit loop replaces the first stored
  client with the selected client's id, not the selected record itself
  (client_actions.py:264-267). A file the program wrote never holds two
  clients with one id, but an edited file can. Then saving the second
  client's update stores it twice and loses the first one.
  `Lifecycle.UpdateFirstOfDuplicates` shows this. `Lifecycle.UpdateUnchanged`
  and `Lifecycle.UpdateRenames` therefore require unique stored ids.

=== FILE: lifecycle.dfy ===
/** Create, delete and update of client_actions.py, each one
    load-mutate-save cycle over the store. The file is passed in and the
    file afterwards is returned; console input arrives as explicit lists. */
module Lifecycle {
  import opened Wrappers
  import opened Seqs
  import opened Schema
  import opened Store
  import opened Validator
  import Text

  /** Whether an operation wrote the file, and what the save reported. */
  datatype Write = NoWrite | Wrote(report: SaveReport)

  /** One operation's effect: the file afterwards, the write it made and
      the outcome it reported. */
  datatype Step<O> = Step(file: File, write: Write, outcome: O)

  // ==== create ==============================================================

  /** The welcome request handed to the messaging collaborator after a
      create has saved (phone number, first name). */
  datatype Welcome = Welcome(phone: string, name: string)

  datatype CreateOutcome =
    | Created(client: Client, welcome: Welcome)
    | CreateExhausted(key: string)   // every typed line for this field was rejected

  /** The values typed for the fields `keys`, one accepted value per field, or
      the first field none of whose typed lines was accepted. */
  datatype Gathered = Gathered(values: seq<string>) | Exhausted(key: string)

  /** The test create applies to a line typed for field `key`:
      `validate_field` with no current id. */
  function CreateTest(file: File): string -> string -> bool {
    key => v => ValidateField(file, key, v, None) == Accepted
  }

  /** The field loop of `create_client`: ask for each field in turn until a
      typed line passes `test` for that field. */
  function Collect(keys: seq<string>, attempts: seq<seq<string>>, test: string -> string -> bool): (r: Gathered)
    requires |keys| == |attempts|
    ensures r.Gathered? ==> |r.values| == |keys|
    ensures r.Gathered? ==> forall i :: 0 <= i < |keys| ==> test(keys[i])(r.values[i])
    ensures r.Exhausted? ==> exists i :: 0 <= i < |keys| && r.key == keys[i] && AllRejected(attempts[i], test(keys[i]))
    decreases |keys|
  {
    if keys == [] then Gathered([])
    else
      match GetValidData(attempts[0], test(keys[0]))
      case None => Exhausted(keys[0])
      case Some(v) =>
        var rest := Collect(keys[1..], attempts[1..], test);
        match rest
        case Exhausted(k) =>
          assert forall i :: 1 <= i < |keys| ==> keys[i] == keys[1..][i - 1] && attempts[i] == attempts[1..][i - 1];
          rest
        case Gathered(vs) =>
          assert forall i :: 1 <= i < |keys| ==>
                   keys[i] == keys[1..][i - 1] && attempts[i] == attempts[1..][i - 1] && ([v] + vs)[i] == vs[i - 1];
          Gathered([v] + vs)
  }

  /** The dictionary `create_client` builds, key by key in order. */
  function Assemble(keys: seq<string>, values: seq<string>): (m: map<string, string>)
    requires |keys| == |values|
    ensures m.Keys == set i | 0 <= i < |keys| :: keys[i]
    ensures (forall i, j :: 0 <= i < j < |keys| ==> keys[i] != keys[j]) ==>
              forall i :: 0 <= i < |keys| ==> m[keys[i]] == values[i]
    decreases |keys|
  {
    if keys == [] then map[]
    else
      var n := |keys| - 1;
      var m := Assemble(keys[..n], values[..n]);
      assert forall i :: 0 <= i < n ==> keys[..n][i] == keys[i] && values[..n][i] == values[i];
      assert (set i | 0 <= i < |keys| :: keys[i]) == (set i | 0 <= i < n :: keys[..n][i]) + {keys[n]};
      m[keys[n] := values[n]]
  }

  /** The set of the five schema keys. */
  function KeySet(): (ks: set<string>)
    ensures ks == {"name", "last_name", "id", "email", "phone"}
  {
    var s := set i | 0 <= i < |Keys()| :: Keys()[i];
    assert Keys()[0] in s && Keys()[1] in s && Keys()[2] in s && Keys()[3] in s && Keys()[4] in s;
    s
  }

  /** Each gathered value is what the retry loop returned for its field:
      the first typed line accepted, stripped. */
  lemma {:induction false} CollectTypedFirst(keys: seq<string>, attempts: seq<seq<string>>, test: string -> string -> bool)
    requires |keys| == |attempts|
    ensures Collect(keys, attempts, test).Gathered? ==>
              forall i :: 0 <= i < |keys| ==> TypedFirst(attempts[i], test(keys[i]), Collect(keys, attempts, test).values[i])
    decreases |keys|
  {
    var r := Collect(keys, attempts, test);
    if keys != [] && r.Gathered? {
      var v := GetValidData(attempts[0], test(keys[0])).value;
      CollectTypedFirst(keys[1..], attempts[1..], test);
      var vs := Collect(keys[1..], attempts[1..], test).values;
      assert r.values == [v] + vs;
      forall i | 1 <= i < |keys|
        ensures TypedFirst(attempts[i], test(keys[i]), r.values[i])
      {
        assert keys[i] == keys[1..][i - 1] && attempts[i] == attempts[1..][i - 1];
      }
    }
  }

  /** The field loop runs out exactly at the first field none of whose
      typed lines is accepted, and gathers every field when there is none. */
  lemma CollectDecides(keys: seq<string>, attempts: seq<seq<string>>, test: string -> string -> bool)
    requires |keys| == |attempts|
    ensures Collect(keys, attempts, test).Gathered? <==>
              forall i :: 0 <= i < |keys| ==> !AllRejected(attempts[i], test(keys[i]))
    ensures Collect(keys, attempts, test).Exhausted? ==>
              exists i :: ExhaustedAt(keys, attempts, test, i) && Collect(keys, attempts, test).key == keys[i]
  {
    CollectGathers(keys, attempts, test);
    CollectExhausts(keys, attempts, test);
  }

  /** After an accepted first field, the loop goes on with the rest. */
  lemma CollectTail(keys: seq<string>, attempts: seq<seq<string>>, test: string -> string -> bool)
    requires |keys| == |attempts| && keys != []
    requires !AllRejected(attempts[0], test(keys[0]))
    ensures Collect(keys, attempts, test).Gathered? == Collect(keys[1..], attempts[1..], test).Gathered?
    ensures Collect(keys, attempts, test).Exhausted? ==>
              Collect(keys, attempts, test).key == Collect(keys[1..], attempts[1..], test).key
    ensures forall i :: 1 <= i < |keys| ==> keys[i] == keys[1..][i - 1] && attempts[i] == attempts[1..][i - 1]
  {
    assert GetValidData(attempts[0], test(keys[0])).Some?;
  }

  lemma {:induction false} CollectGathers(keys: seq<string>, attempts: seq<seq<string>>, test: string -> string -> bool)
    requires |keys| == |attempts|
    ensures Collect(keys, attempts, test).Gathered? <==>
              forall i :: 0 <= i < |keys| ==> !AllRejected(attempts[i], test(keys[i]))
    decreases |keys|
  {
    if keys != [] {
      if AllRejected(attempts[0], test(keys[0])) {
        assert GetValidData(attempts[0], test(keys[0])).None?;
      } else {
        CollectGathers(keys[1..], attempts[1..], test);
        CollectTail(keys, attempts, test);
      }
    }
  }

  lemma {:induction false} CollectExhausts(keys: seq<string>, attempts: seq<seq<string>>, test: string -> string -> bool)
    requires |keys| == |attempts|
    ensures Collect(keys, attempts, test).Exhausted? ==>
              exists i :: ExhaustedAt(keys, attempts, test, i) && Collect(keys, attempts, test).key == keys[i]
    decreases |keys|
  {
    if keys != [] {
      if AllRejected(attempts[0], test(keys[0])) {
        assert GetValidData(attempts[0], test(keys[0])).None?;
        assert ExhaustedAt(keys, attempts, test, 0);
      } else {
        CollectExhausts(keys[1..], attempts[1..], test);
        CollectTail(keys, attempts, test);
        var rest := Collect(keys[1..], attempts[1..], test);
        if rest.Exhausted? {
          var i :| ExhaustedAt(keys[1..], attempts[1..], test, i) && rest.key == keys[1..][i];
          assert ExhaustedAt(keys, attempts, test, i + 1);
        }
      }
    }
  }

  /** Field `i` is the first whose typed lines are all rejected. */
  predicate ExhaustedAt(keys: seq<string>, attempts: seq<seq<string>>, test: string -> string -> bool, i: int)
    requires |keys| == |attempts|
  {
    && 0 <= i < |keys| && AllRejected(attempts[i], test(keys[i]))
    && forall j :: 0 <= j < i ==> !AllRejected(attempts[j], test(keys[j]))
  }

  /** The five fields gathered for create, in schema order. */
  function Gather(file: File, attempts: seq<seq<string>>): (g: Gathered)
    requires |attempts| == |Keys()|
    ensures g.Gathered? ==> |g.values| == |Keys()|
    ensures g.Gathered? ==> forall i :: 0 <= i < |Keys()| ==> CreateTest(file)(Keys()[i])(g.values[i])
    ensures g.Exhausted? ==> g.key in Keys()
  {
    Collect(Keys(), attempts, CreateTest(file))
  }

  /** A client create may append to the list stored in `file`: exactly the
      five schema keys, each value conforming to its field's rule, and an id
      no stored client has. */
  ghost predicate Registrable(file: File, c: Client) {
    && c.fields.Keys == KeySet()
    && (forall i :: 0 <= i < |Keys()| ==> Conforms(Keys()[i], c.fields[Keys()[i]]))
    && !HasId(Load(file), c.fields[IdKey])
  }

  /** The client built from one accepted value per field. */
  function NewClient(values: seq<string>): Client
    requires |values| == |Keys()|
  {
    Client(Assemble(Keys(), values))
  }

  lemma NewClientRegistrable(file: File, values: seq<string>)
    requires |values| == |Keys()|
    requires forall i :: 0 <= i < |Keys()| ==> CreateTest(file)(Keys()[i])(values[i])
    ensures Registrable(file, NewClient(values))
    ensures NewClient(values).fields["name"] == values[0]
    ensures NewClient(values).fields["phone"] == values[4]
  {
    AcceptedForCreate(file, values);
    ConformingRegistrable(file, values);
  }

  /** Conforming values with an unstored id make a registrable client. */
  lemma ConformingRegistrable(file: File, values: seq<string>)
    requires |values| == |Keys()|
    requires forall i :: 0 <= i < |Keys()| ==> Conforms(Keys()[i], values[i])
    requires !HasId(Load(file), values[2])
    ensures Registrable(file, NewClient(values))
    ensures NewClient(values).fields["name"] == values[0]
    ensures NewClient(values).fields["phone"] == values[4]
  {
    NewClientFields(values);
    assert NewClient(values).fields.Keys == KeySet();
  }

  /** Values create accepted conform to their rules, and the id is not
      stored. */
  lemma AcceptedForCreate(file: File, values: seq<string>)
    requires |values| == |Keys()|
    requires forall i :: 0 <= i < |Keys()| ==> CreateTest(file)(Keys()[i])(values[i])
    ensures forall i :: 0 <= i < |Keys()| ==> Conforms(Keys()[i], values[i])
    ensures !HasId(Load(file), values[2])
  {
    forall i | 0 <= i < |Keys()|
      ensures Conforms(Keys()[i], values[i])
    {
      CreateTestPasses(file, Keys()[i], values[i]);
    }
    CreateTestPasses(file, Keys()[2], values[2]);
    IdThird();
  }

  /** The id is the third field. */
  lemma IdThird()
    ensures Keys()[2] == IdKey
  {
  }

  /** A line create's test accepts for `key` conforms to the key's rule, and
      for the id it is not stored. */
  lemma CreateTestPasses(file: File, key: string, v: string)
    requires CreateTest(file)(key)(v)
    ensures Conforms(key, v)
    ensures key == IdKey ==> !HasId(Load(file), v)
  {
    assert ValidateField(file, key, v, None) == Accepted;
  }

  /** `create_client`: gather the five fields, then load, append the new
      client at the end and save. The new client is registrable and the
      welcome request carries its phone and name. When the input runs out
      nothing is written. */
  function Create(file: File, attempts: seq<seq<string>>, fault: SaveFault): (r: Step<CreateOutcome>)
    requires |attempts| == |Fields|
    ensures r.outcome.CreateExhausted? <==> r.write == NoWrite
    ensures r.write == NoWrite ==> r.file == file
    ensures r.outcome.CreateExhausted? ==> r.outcome.key in Keys()
    ensures r.outcome.Created? ==> Registrable(file, r.outcome.client)
    ensures r.outcome.Created? ==>
              r.outcome.welcome == Welcome(r.outcome.client.fields["phone"], r.outcome.client.fields["name"])
    ensures r.outcome.Created? && fault == NoFault ==> Load(r.file) == Load(file) + [r.outcome.client]
    ensures r.write.Wrote? ==> (r.write.report == Saved <==> fault == NoFault)
    ensures r.write.Wrote? && fault == OpenFailed ==> r.file == file
    ensures r.write.Wrote? && fault == WriteFailed ==> Load(r.file) == []
  {
    var g := Gather(file, attempts);
    match g
    case Exhausted(k) => Step(file, NoWrite, CreateExhausted(k))
    case Gathered(vs) =>
      NewClientRegistrable(file, vs);
      var c := NewClient(vs);
      var saved := Save(file, Load(file) + [c], fault);
      Step(saved.0, Wrote(saved.1), Created(c, Welcome(vs[4], vs[0])))
  }

  /** A create happens exactly when every field has a typed line that is
      accepted; otherwise it stops at the first field that has none. */
  lemma CreateDecides(file: File, attempts: seq<seq<string>>, fault: SaveFault)
    requires |attempts| == |Fields|
    ensures Create(file, attempts, fault).outcome.Created? <==>
              forall i :: 0 <= i < |Keys()| ==> !AllRejected(attempts[i], CreateTest(file)(Keys()[i]))
    ensures Create(file, attempts, fault).outcome.CreateExhausted? ==>
              exists i :: ExhaustedAt(Keys(), attempts, CreateTest(file), i) && Create(file, attempts, fault).outcome.key == Keys()[i]
  {
    CollectDecides(Keys(), attempts, CreateTest(file));
    var g := Gather(file, attempts);
    assert g == Collect(Keys(), attempts, CreateTest(file));
    assert Create(file, attempts, fault).outcome.Created? == g.Gathered?;
    assert g.Exhausted? ==> Create(file, attempts, fault).outcome.key == g.key;
  }

  /** The client a create appends is the one built from the gathered
      values. */
  lemma CreateBuildsGathered(file: File, attempts: seq<seq<string>>, fault: SaveFault)
    requires |attempts| == |Fields|
    ensures var r := Create(file, attempts, fault);
            r.outcome.Created? ==> Gather(file, attempts).Gathered? && r.outcome.client == NewClient(Gather(file, attempts).values)
  {
  }

  /** Each gathered value is the first line typed for its field that was
      accepted, stripped. */
  lemma GatherTypedFirst(file: File, attempts: seq<seq<string>>)
    requires |attempts| == |Keys()|
    ensures Gather(file, attempts).Gathered? ==>
              forall i :: 0 <= i < |Keys()| ==> TypedFirst(attempts[i], CreateTest(file)(Keys()[i]), Gather(file, attempts).values[i])
  {
    CollectTypedFirst(Keys(), attempts, CreateTest(file));
  }

  /** The client built from the values holds each value under its key. */
  lemma NewClientFields(values: seq<string>)
    requires |values| == |Keys()|
    ensures forall i :: 0 <= i < |Keys()| ==> NewClient(values).fields[Keys()[i]] == values[i]
  {
    SchemaOrder();
  }

  /** Each field of a created client holds the first line typed for it that
      was accepted, stripped. */
  lemma CreateValuesTyped(file: File, attempts: seq<seq<string>>, fault: SaveFault)
    requires |attempts| == |Fields|
    ensures var r := Create(file, attempts, fault);
            r.outcome.Created? ==>
              forall i :: 0 <= i < |Keys()| ==> TypedFirst(attempts[i], CreateTest(file)(Keys()[i]), r.outcome.client.fields[Keys()[i]])
  {
    var r := Create(file, attempts, fault);
    CreateBuildsGathered(file, attempts, fault);
    if r.outcome.Created? {
      var vs := Gather(file, attempts).values;
      GatherTypedFirst(file, attempts);
      NewClientFields(vs);
    }
  }

  /** A create whose every typed id is already stored never appends and
      never writes. */
  lemma CreateRejectsStoredIds(file: File, attempts: seq<seq<string>>, fault: SaveFault)
    requires |attempts| == |Fields|
    requires forall j :: 0 <= j < |attempts[2]| ==> HasId(Load(file), Text.Strip(attempts[2][j]))
    ensures Create(file, attempts, fault).write == NoWrite
    ensures Create(file, attempts, fault).file == file
  {
    StoredIdsRejected(file, attempts[2]);
    CreateDecides(file, attempts, fault);
  }

  /** Typed lines that are all stored ids are all rejected as a new id. */
  lemma StoredIdsRejected(file: File, lines: seq<string>)
    requires forall j :: 0 <= j < |lines| ==> HasId(Load(file), Text.Strip(lines[j]))
    ensures AllRejected(lines, CreateTest(file)(Keys()[2]))
  {
    IdThird();
    forall j | 0 <= j < |lines|
      ensures !CreateTest(file)(Keys()[2])(Text.Strip(lines[j]))
    {
      StoredIdFails(file, Text.Strip(lines[j]));
    }
  }

  /** Create's id test rejects an id that is already stored. */
  lemma StoredIdFails(file: File, v: string)
    requires HasId(Load(file), v)
    ensures !CreateTest(file)(IdKey)(v)
  {
    assert ValidateField(file, IdKey, v, None) != Accepted;
  }

  /** Create keeps stored ids unique: the appended client's id is new. */
  lemma CreateKeepsIdsUnique(file: File, attempts: seq<seq<string>>)
    requires |attempts| == |Fields|
    requires UniqueIds(Load(file))
    ensures UniqueIds(Load(Create(file, attempts, NoFault).file))
  {
    var r := Create(file, attempts, NoFault);
    if r.outcome.Created? {
      var c := r.outcome.client;
      assert Registrable(file, c);
      assert IdKey in c.fields;
      assert Load(r.file) == Load(file) + [c];
      AppendKeepsIdsUnique(Load(file), c);
    }
  }

  /** Appending a client whose id is not stored keeps ids unique. */
  lemma AppendKeepsIdsUnique(cs: seq<Client>, c: Client)
    requires UniqueIds(cs)
    requires IdKey in c.fields && !HasId(cs, c.fields[IdKey])
    ensures UniqueIds(cs + [c])
  {
    var cs' := cs + [c];
    assert c.Id() == Some(c.fields[IdKey]);
    forall i, j | 0 <= i < |cs'| && 0 <= j < |cs'| && i != j && cs'[i].Id().Some?
      ensures cs'[i].Id() != cs'[j].Id()
    {
      if i == |cs| {
        assert cs'[j] == cs[j];
      } else if j == |cs| {
        assert cs'[i] == cs[i];
      } else {
        assert cs'[i] == cs[i] && cs'[j] == cs[j];
      }
    }
  }

  // ==== delete ==============================================================

  datatype DeleteOutcome = DeleteCancelled | Deleted(remaining: nat) | DeleteNotFound

  /** The confirmation typed before a delete, as `delete_client` reads it. */
  predicate Confirmed(answer: string) {
    Text.Lower(Text.Strip(answer)) == "yes"
  }

  /** "yes" in any of its eight mixes of letter case. */
  predicate YesSpelling(s: string) {
    |s| == 3 && s[0] in {'y', 'Y'} && s[1] in {'e', 'E'} && s[2] in {'s', 'S'}
  }

  /** A delete is confirmed exactly by "yes" in any mix of letter case,
      with any surrounding whitespace. */
  lemma ConfirmedSpellings(answer: string)
    ensures Confirmed(answer) <==> YesSpelling(Text.Strip(answer))
  {
    var s := Text.Strip(answer);
    var low := Text.Lower(s);
    if |s| == 3 {
      assert low == [Text.LowerChar(s[0]), Text.LowerChar(s[1]), Text.LowerChar(s[2])];
      LowerCharIs(s[0], 'y', 'Y');
      LowerCharIs(s[1], 'e', 'E');
      LowerCharIs(s[2], 's', 'S');
    }
  }

  /** The only characters that lowercase to a lower-case letter are it and
      its capital. */
  lemma LowerCharIs(c: char, lower: char, upper: char)
    requires 'a' <= lower <= 'z' && upper as int == lower as int - 32
    ensures Text.LowerChar(c) == lower <==> c == lower || c == upper
  {
  }

  /** The clients `delete_client` keeps: every one whose id differs from
      `target`, in their order and with their multiplicity. */
  function Remaining(clients: seq<Client>, target: Option<string>): (r: seq<Client>)
    ensures IsSubsequence(r, clients)
    ensures forall c :: multiset(r)[c] == if c.Id() != target then multiset(clients)[c] else 0
    ensures forall i :: 0 <= i < |r| ==> r[i].Id() != target
  {
    var keep := (c: Client) => c.Id() != target;
    FilterSpec(clients, keep);
    var r := Filter(clients, keep);
    assert forall i :: 0 <= i < |r| ==> r[i] in multiset(r);
    r
  }

  /** `delete_client`: without a typed "yes" nothing is loaded or written.
      Otherwise every stored client with the selected client's id is
      dropped, the rest kept in order; the file is saved only when that
      removed something, and otherwise left untouched. */
  function Delete(file: File, selected: Client, answer: string, fault: SaveFault): (r: Step<DeleteOutcome>)
    ensures r.outcome == DeleteCancelled <==> !Confirmed(answer)
    ensures r.outcome.Deleted? <==> Confirmed(answer) && exists i :: 0 <= i < |Load(file)| && Load(file)[i].Id() == selected.Id()
    ensures r.write.Wrote? <==> r.outcome.Deleted?
    ensures r.write == NoWrite ==> r.file == file
    ensures r.outcome.Deleted? && fault == NoFault ==>
              && IsSubsequence(Load(r.file), Load(file))
              && (forall c :: multiset(Load(r.file))[c] == if c.Id() != selected.Id() then multiset(Load(file))[c] else 0)
              && r.outcome.remaining == |Load(r.file)| < |Load(file)|
    ensures r.write.Wrote? ==> (r.write.report == Saved <==> fault == NoFault)
    ensures r.write.Wrote? && fault == OpenFailed ==> r.file == file
    ensures r.write.Wrote? && fault == WriteFailed ==> Load(r.file) == []
  {
    if !Confirmed(answer) then Step(file, NoWrite, DeleteCancelled)
    else
      var cs := Load(file);
      var kept := Remaining(cs, selected.Id());
      FilterSpec(cs, (c: Client) => c.Id() != selected.Id());
      FilterShorter(cs, (c: Client) => c.Id() != selected.Id());
      if |kept| < |cs| then
        var saved := Save(file, kept, fault);
        Step(saved.0, Wrote(saved.1), Deleted(|kept|))
      else Step(file, NoWrite, DeleteNotFound)
  }

  /** After a delete that saved, no stored client has the deleted id. */
  lemma DeleteRemovesAll(file: File, selected: Client, answer: string)
    ensures var r := Delete(file, selected, answer, NoFault);
            r.outcome.Deleted? ==> forall i :: 0 <= i < |Load(r.file)| ==> Load(r.file)[i].Id() != selected.Id()
  {
    var r := Delete(file, selected, answer, NoFault);
    if r.outcome.Deleted? {
      FilterAllKept(Load(file), (c: Client) => c.Id() != selected.Id());
    }
  }

  /** Deleting the same client twice: the second delete finds nothing and
      writes nothing. */
  lemma DeleteTwice(file: File, selected: Client, answer: string, fault: SaveFault)
    ensures var first := Delete(file, selected, answer, NoFault);
            first.outcome.Deleted? ==>
              && Delete(first.file, selected, answer, fault).outcome == DeleteNotFound
              && Delete(first.file, selected, answer, fault).file == first.file
  {
    DeleteRemovesAll(file, selected, answer);
  }

  /** Deleting keeps stored ids unique. */
  lemma DeleteKeepsIdsUnique(file: File, selected: Client, answer: string)
    requires UniqueIds(Load(file))
    ensures UniqueIds(Load(Delete(file, selected, answer, NoFault).file))
  {
    var r := Delete(file, selected, answer, NoFault);
    if r.outcome.Deleted? {
      SubsequenceKeepsUniqueIds(Load(r.file), Load(file));
    }
  }

  lemma {:induction false} SubsequenceKeepsUniqueIds(a: seq<Client>, b: seq<Client>)
    requires IsSubsequence(a, b) && UniqueIds(b)
    ensures UniqueIds(a)
    decreases |b|
  {
    if a != [] {
      assert UniqueIds(b[1..]) by {
        forall i, j | 0 <= i < |b[1..]| && 0 <= j < |b[1..]| && i != j && b[1..][i].Id().Some?
          ensures b[1..][i].Id() != b[1..][j].Id()
        {
          assert b[1..][i] == b[i + 1] && b[1..][j] == b[j + 1];
        }
      }
      if a[0] == b[0] && IsSubsequence(a[1..], b[1..]) {
        SubsequenceKeepsUniqueIds(a[1..], b[1..]);
        SubsequenceMembers(a[1..], b[1..]);
        forall i, j | 0 <= i < |a| && 0 <= j < |a| && i != j && a[i].Id().Some?
          ensures a[i].Id() != a[j].Id()
        {
          if i == 0 {
            assert a[j] == a[1..][j - 1];
            var k :| 0 <= k < |b[1..]| && b[1..][k] == a[j];
            assert b[k + 1] == a[j];
          } else if j == 0 {
            assert a[i] == a[1..][i - 1];
            var k :| 0 <= k < |b[1..]| && b[1..][k] == a[i];
            assert b[k + 1] == a[i];
          } else {
            assert a[i] == a[1..][i - 1] && a[j] == a[1..][j - 1];
          }
        }
      } else {
        SubsequenceKeepsUniqueIds(a, b[1..]);
      }
    }
  }

  lemma {:induction false} SubsequenceMembers(a: seq<Client>, b: seq<Client>)
    requires IsSubsequence(a, b)
    ensures forall i :: 0 <= i < |a| ==> exists k :: 0 <= k < |b| && b[k] == a[i]
    decreases |b|
  {
    if a != [] {
      if a[0] == b[0] && IsSubsequence(a[1..], b[1..]) {
        SubsequenceMembers(a[1..], b[1..]);
        forall i | 0 <= i < |a|
          ensures exists k :: 0 <= k < |b| && b[k] == a[i]
        {
          if i == 0 {
            assert b[0] == a[0];
          } else {
            assert a[i] == a[1..][i - 1];
            var k :| 0 <= k < |b[1..]| && b[1..][k] == a[i];
            assert b[k + 1] == a[i];
          }
        }
      } else {
        SubsequenceMembers(a, b[1..]);
        forall i | 0 <= i < |a|
          ensures exists k :: 0 <= k < |b| && b[k] == a[i]
        {
          var k :| 0 <= k < |b[1..]| && b[1..][k] == a[i];
          assert b[k + 1] == a[i];
        }
      }
    }
  }

  // ==== update ==============================================================

  /** One line typed at the update menu, already classified after
      stripping: "6", "7", any other line `int()` parses (with the lines
      then typed for that field), or a line it does not parse. */
  datatype Command =
    | SaveChanges
    | Discard
    | Pick(n: int, attempts: seq<string>)
    | NotANumber

  /** How the editing loop of `update_client` ended. */
  datatype Session = Commit(client: Client) | Discarded | Ended

  datatype UpdateOutcome = UpdateCancelled | UpdateSaved(client: Client) | InputEnded

  /** The test an edit of field `key` applies: `validate_field`, with the
      client's original id as the current id only when `key` is the id. */
  function EditTest(file: File, original: Option<string>, key: string): string -> bool {
    var current := if key == IdKey then original else None;
    v => ValidateField(file, key, v, current) == Accepted
  }

  /** The menu loop of `update_client`: picks 1 to 5 edit the matching
      schema field of the working copy, any other number or unparsable line
      is ignored, "6" commits and "7" discards. Input that runs out ends
      the session. */
  function EditSession(file: File, original: Option<string>, c: Client, cmds: seq<Command>): (r: Session)
    ensures r.Commit? ==> exists i :: DecidedAt(cmds, i) && cmds[i].SaveChanges?
    ensures r.Discarded? ==> exists i :: DecidedAt(cmds, i) && cmds[i].Discard?
    ensures r.Commit? ==> c.fields.Keys <= r.client.fields.Keys
    decreases |cmds|
  {
    if cmds == [] then Ended
    else match cmds[0]
      case SaveChanges => Commit(c)
      case Discard => Discarded
      case NotANumber =>
        DecidedLater(cmds);
        EditSession(file, original, c, cmds[1..])
      case Pick(n, attempts) =>
        match EditOnce(file, original, c, n, attempts)
        case None => Ended
        case Some(c') =>
          DecidedLater(cmds);
          EditSession(file, original, c', cmds[1..])
  }

  /** Past a first command that is neither "6" nor "7", the first "6" or
      "7" of the rest is the first of the whole list. */
  lemma DecidedLater(cmds: seq<Command>)
    requires cmds != [] && !cmds[0].SaveChanges? && !cmds[0].Discard?
    ensures forall i :: DecidedAt(cmds[1..], i) ==> DecidedAt(cmds, i + 1) && cmds[i + 1] == cmds[1..][i]
  {
    forall i | DecidedAt(cmds[1..], i)
      ensures DecidedAt(cmds, i + 1) && cmds[i + 1] == cmds[1..][i]
    {
      DecidedShift(cmds, i);
    }
  }

  /** `cmds[i]` is the first "6" or "7" of `cmds`. */
  predicate DecidedAt(cmds: seq<Command>, i: int) {
    && 0 <= i < |cmds| && (cmds[i].SaveChanges? || cmds[i].Discard?)
    && forall j :: 0 <= j < i ==> !cmds[j].SaveChanges? && !cmds[j].Discard?
  }

  /** One numbered pick: 1 to 5 edit that schema field with the first
      accepted line (nothing when none is), any other number changes nothing. */
  function EditOnce(file: File, original: Option<string>, c: Client, n: int, attempts: seq<string>): (r: Option<Client>)
    ensures !(1 <= n <= |Keys()|) ==> r == Some(c)
    ensures 1 <= n <= |Keys()| ==> (r.None? <==> AllRejected(attempts, EditTest(file, original, Keys()[n - 1])))
    ensures 1 <= n <= |Keys()| && r.Some? ==>
              && Keys()[n - 1] in r.value.fields
              && TypedFirst(attempts, EditTest(file, original, Keys()[n - 1]), r.value.fields[Keys()[n - 1]])
              && r.value.fields == c.fields[Keys()[n - 1] := r.value.fields[Keys()[n - 1]]]
  {
    if 1 <= n <= |Keys()| then
      var key := Keys()[n - 1];
      match GetValidData(attempts, EditTest(file, original, key))
      case None => None
      case Some(v) => Some(c.With(key, v))
    else Some(c)
  }

  /** What an edit session may do to the working copy: keep its keys, add
      only schema keys, leave every field either as it was or conforming to
      its rule, and leave the id either as it was or one no stored client
      has. */
  ghost predicate EditedFrom(file: File, original: Option<string>, before: Client, after: Client) {
    && before.fields.Keys <= after.fields.Keys <= before.fields.Keys + KeySet()
    && KeptOrConforming(before, after)
    && FreshOrOriginal(file, original, after)
  }

  ghost predicate KeptOrConforming(before: Client, after: Client) {
    forall k :: k in after.fields ==> after.Get(k) == before.Get(k) || Conforms(k, after.fields[k])
  }

  ghost predicate FreshOrOriginal(file: File, original: Option<string>, c: Client) {
    c.Id() == original || (c.Id().Some? && !HasId(Load(file), c.Id().value))
  }

  /** A value an edit accepted conforms to its field's rule, and an
      accepted id is the original one or not stored. */
  lemma EditAccepted(file: File, original: Option<string>, key: string, v: string)
    ensures EditTest(file, original, key)(v) ==> key in Keys() && Conforms(key, v)
    ensures EditTest(file, original, key)(v) && key == IdKey ==> Some(v) == original || !HasId(Load(file), v)
  {
    var current := if key == IdKey then original else None;
    assert EditTest(file, original, key)(v) == (ValidateField(file, key, v, current) == Accepted);
  }

  /** One accepted edit keeps `EditedFrom`. */
  lemma EditStep(file: File, original: Option<string>, before: Client, mid: Client, key: string, v: string)
    requires EditedFrom(file, original, before, mid)
    requires EditTest(file, original, key)(v)
    ensures EditedFrom(file, original, before, mid.With(key, v))
  {
    EditAccepted(file, original, key, v);
    var after := mid.With(key, v);
    assert key in KeySet();
    assert FreshOrOriginal(file, original, after) by {
      if key == IdKey {
        assert after.Id() == Some(v);
      } else {
        assert after.Id() == mid.Id();
      }
    }
    assert KeptOrConforming(before, after) by {
      forall k | k in after.fields
        ensures after.Get(k) == before.Get(k) || Conforms(k, after.fields[k])
      {
        if k != key {
          assert after.Get(k) == mid.Get(k);
          assert k in mid.fields;
        }
      }
    }
  }

  /** One pick keeps `EditedFrom`. */
  lemma EditOnceEdits(file: File, original: Option<string>, start: Client, c: Client, n: int, attempts: seq<string>)
    requires EditedFrom(file, original, start, c)
    ensures EditOnce(file, original, c, n, attempts).Some? ==>
              EditedFrom(file, original, start, EditOnce(file, original, c, n, attempts).value)
  {
    if 1 <= n <= |Keys()| {
      var key := Keys()[n - 1];
      var got := GetValidData(attempts, EditTest(file, original, key));
      if got.Some? {
        EditStep(file, original, start, c, key, got.value);
      }
    }
  }

  /** A committed working copy stands in the `EditedFrom` relation to the
      client the session started from. */
  lemma {:induction false} SessionEdits(file: File, original: Option<string>, start: Client, c: Client, cmds: seq<Command>)
    requires EditedFrom(file, original, start, c)
    ensures EditSession(file, original, c, cmds).Commit? ==>
              EditedFrom(file, original, start, EditSession(file, original, c, cmds).client)
    decreases |cmds|
  {
    if cmds != [] {
      match cmds[0]
      case SaveChanges =>
      case Discard =>
      case NotANumber => SessionEdits(file, original, start, c, cmds[1..]);
      case Pick(n, attempts) =>
        EditOnceEdits(file, original, start, c, n, attempts);
        var next := EditOnce(file, original, c, n, attempts);
        if next.Some? {
          SessionEdits(file, original, start, next.value, cmds[1..]);
        }
    }
  }

  /** `cmd` picks a field in range none of whose typed lines is accepted:
      the pick that ends the session when the input runs out. */
  predicate FailsEdit(file: File, original: Option<string>, cmd: Command) {
    cmd.Pick? && 1 <= cmd.n <= |Keys()| && AllRejected(cmd.attempts, EditTest(file, original, Keys()[cmd.n - 1]))
  }

  /** No pick before position `i` fails. */
  predicate NoEditFailsBefore(file: File, original: Option<string>, cmds: seq<Command>, i: int) {
    forall j :: 0 <= j < i && j < |cmds| ==> !FailsEdit(file, original, cmds[j])
  }

  /** The menu reaches `cmds[i]` and it is the first "6" or "7". */
  predicate Reaches(file: File, original: Option<string>, cmds: seq<Command>, i: int) {
    DecidedAt(cmds, i) && NoEditFailsBefore(file, original, cmds, i)
  }

  /** Past a first command that neither decides nor fails, the menu reaches
      the same commands one position later. */
  lemma ReachesShift(file: File, original: Option<string>, cmds: seq<Command>, i: int)
    requires cmds != [] && !cmds[0].SaveChanges? && !cmds[0].Discard? && !FailsEdit(file, original, cmds[0])
    ensures Reaches(file, original, cmds[1..], i) <==> Reaches(file, original, cmds, i + 1)
  {
    DecidedShift(cmds, i);
    NoFailShift(file, original, cmds, i);
  }

  lemma DecidedShift(cmds: seq<Command>, i: int)
    requires cmds != [] && !cmds[0].SaveChanges? && !cmds[0].Discard?
    ensures DecidedAt(cmds[1..], i) <==> DecidedAt(cmds, i + 1)
  {
    assert forall j :: 0 <= j < |cmds[1..]| ==> cmds[1..][j] == cmds[j + 1];
  }

  lemma NoFailShift(file: File, original: Option<string>, cmds: seq<Command>, i: int)
    requires cmds != [] && !FailsEdit(file, original, cmds[0])
    ensures NoEditFailsBefore(file, original, cmds[1..], i) <==> NoEditFailsBefore(file, original, cmds, i + 1)
  {
    assert forall j :: 0 <= j < |cmds[1..]| ==> cmds[1..][j] == cmds[j + 1];
  }

  /** A reached "6" commits and a reached "7" discards. */
  lemma {:induction false} SessionDecided(file: File, original: Option<string>, c: Client, cmds: seq<Command>, i: int)
    requires Reaches(file, original, cmds, i)
    ensures cmds[i].SaveChanges? ==> EditSession(file, original, c, cmds).Commit?
    ensures cmds[i].Discard? ==> EditSession(file, original, c, cmds).Discarded?
    decreases |cmds|
  {
    if i > 0 {
      assert !cmds[0].SaveChanges? && !cmds[0].Discard? && !FailsEdit(file, original, cmds[0]);
      ReachesShift(file, original, cmds, i - 1);
      assert cmds[1..][i - 1] == cmds[i];
      var next := SessionNext(file, original, c, cmds);
      SessionDecided(file, original, next, cmds[1..], i - 1);
    }
  }

  /** The working copy after a first command that neither decides nor
      fails: the session goes on from it with the remaining commands. */
  function SessionNext(file: File, original: Option<string>, c: Client, cmds: seq<Command>): (next: Client)
    requires cmds != [] && !cmds[0].SaveChanges? && !cmds[0].Discard? && !FailsEdit(file, original, cmds[0])
    ensures EditSession(file, original, c, cmds) == EditSession(file, original, next, cmds[1..])
  {
    if cmds[0].NotANumber? then c
    else EditOnce(file, original, c, cmds[0].n, cmds[0].attempts).value
  }

  /** When no "6" or "7" is reached, the session ends without either. */
  lemma {:induction false} SessionUndecided(file: File, original: Option<string>, c: Client, cmds: seq<Command>)
    requires forall i :: !Reaches(file, original, cmds, i)
    ensures EditSession(file, original, c, cmds).Ended?
    decreases |cmds|
  {
    if cmds != [] {
      assert !Reaches(file, original, cmds, 0);
      if !FailsEdit(file, original, cmds[0]) {
        forall i ensures !Reaches(file, original, cmds[1..], i) {
          ReachesShift(file, original, cmds, i);
        }
        var next := SessionNext(file, original, c, cmds);
        SessionUndecided(file, original, next, cmds[1..]);
      }
    }
  }

  /** The menu loop saves exactly when it reaches a "6" before any "7" with
      no pick before it running out of input, and discards exactly when it
      so reaches a "7". Unparsable lines, invalid numbers and accepted edits
      before that change nothing about the decision. */
  lemma SessionOutcome(file: File, original: Option<string>, c: Client, cmds: seq<Command>)
    ensures EditSession(file, original, c, cmds).Commit? <==>
              exists i :: DecidedAt(cmds, i) && cmds[i].SaveChanges? && NoEditFailsBefore(file, original, cmds, i)
    ensures EditSession(file, original, c, cmds).Discarded? <==>
              exists i :: DecidedAt(cmds, i) && cmds[i].Discard? && NoEditFailsBefore(file, original, cmds, i)
  {
    var r := EditSession(file, original, c, cmds);
    if i :| Reaches(file, original, cmds, i) {
      SessionDecided(file, original, c, cmds, i);
      DecidedUnique(cmds, i);
      assert cmds[i].SaveChanges? || cmds[i].Discard?;
    } else {
      SessionUndecided(file, original, c, cmds);
      assert forall j :: !(DecidedAt(cmds, j) && NoEditFailsBefore(file, original, cmds, j)) by {
        forall j ensures !(DecidedAt(cmds, j) && NoEditFailsBefore(file, original, cmds, j)) {
          assert !Reaches(file, original, cmds, j);
        }
      }
      assert r.Ended?;
    }
  }

  /** There is at most one first "6" or "7". */
  lemma DecidedUnique(cmds: seq<Command>, i: int)
    requires DecidedAt(cmds, i)
    ensures forall j :: DecidedAt(cmds, j) ==> j == i
  {
  }

  /** `cmd` is a pick of the schema field `key`. */
  predicate Names(cmd: Command, key: string) {
    cmd.Pick? && 1 <= cmd.n <= |Keys()| && Keys()[cmd.n - 1] == key
  }

  /** A field no pick names keeps its value through a committed session. */
  lemma {:induction false} SessionFrame(file: File, original: Option<string>, c: Client, cmds: seq<Command>, key: string)
    requires forall i :: 0 <= i < |cmds| ==> !Names(cmds[i], key)
    ensures EditSession(file, original, c, cmds).Commit? ==>
              EditSession(file, original, c, cmds).client.Get(key) == c.Get(key)
    decreases |cmds|
  {
    if cmds != [] {
      assert forall i :: 0 <= i < |cmds[1..]| ==> !Names(cmds[1..][i], key) by {
        forall i | 0 <= i < |cmds[1..]| ensures !Names(cmds[1..][i], key) {
          assert cmds[1..][i] == cmds[i + 1];
        }
      }
      match cmds[0]
      case SaveChanges =>
      case Discard =>
      case NotANumber => SessionFrame(file, original, c, cmds[1..], key);
      case Pick(n, attempts) =>
        var next := EditOnce(file, original, c, n, attempts);
        EditOnceFrame(file, original, c, n, attempts, key);
        if next.Some? {
          SessionFrame(file, original, next.value, cmds[1..], key);
        }
    }
  }

  /** A pick that does not name `key` leaves it as it was. */
  lemma EditOnceFrame(file: File, original: Option<string>, c: Client, n: int, attempts: seq<string>, key: string)
    requires !Names(Pick(n, attempts), key)
    ensures EditOnce(file, original, c, n, attempts).Some? ==>
              EditOnce(file, original, c, n, attempts).value.Get(key) == c.Get(key)
  {
  }

  /** The first position holding a client whose id is `target`. */
  function FirstIndex(clients: seq<Client>, target: Option<string>): (r: Option<nat>)
    ensures r.None? <==> forall j :: 0 <= j < |clients| ==> clients[j].Id() != target
    ensures r.Some? ==> r.value < |clients| && clients[r.value].Id() == target
    ensures r.Some? ==> forall j :: 0 <= j < r.value ==> clients[j].Id() != target
    decreases |clients|
  {
    if clients == [] then None
    else if clients[0].Id() == target then Some(0)
    else match FirstIndex(clients[1..], target)
      case None => None
      case Some(i) => Some(i + 1)
  }

  /** The commit loop of `update_client`: the first client whose id is
      `target` is replaced by `c`; when there is none the list is kept. */
  function ReplaceFirst(clients: seq<Client>, target: Option<string>, c: Client): (r: seq<Client>)
    ensures |r| == |clients|
    ensures FirstIndex(clients, target).None? ==> r == clients
    ensures FirstIndex(clients, target).Some? ==>
              var i := FirstIndex(clients, target).value;
              r[i] == c && forall j :: 0 <= j < |r| && j != i ==> r[j] == clients[j]
  {
    match FirstIndex(clients, target)
    case None => clients
    case Some(i) => clients[i := c]
  }

  /** `update_client`: run the menu over a working copy of `selected`. A
      discard or input that runs out writes nothing. A commit loads the
      stored list, puts the working copy in place of the first client
      carrying the selected client's original id, and saves, also when no
      stored client carries it. */
  function Update(file: File, selected: Client, cmds: seq<Command>, fault: SaveFault): (r: Step<UpdateOutcome>)
    ensures r.write == NoWrite <==> !r.outcome.UpdateSaved?
    ensures r.write == NoWrite ==> r.file == file
    ensures r.outcome.UpdateSaved? && fault == NoFault ==>
              && |Load(r.file)| == |Load(file)|
              && forall j :: 0 <= j < |Load(file)| ==>
                   Load(r.file)[j] == if FirstIndex(Load(file), selected.Id()) == Some(j) then r.outcome.client else Load(file)[j]
    ensures r.outcome.UpdateSaved? && fault == NoFault && !(exists i :: 0 <= i < |Load(file)| && Load(file)[i].Id() == selected.Id()) ==>
              Load(r.file) == Load(file)
    ensures r.outcome == UpdateCancelled <==> EditSession(file, selected.Id(), selected, cmds).Discarded?
    ensures r.outcome == InputEnded <==> EditSession(file, selected.Id(), selected, cmds).Ended?
    ensures r.write.Wrote? ==> (r.write.report == Saved <==> fault == NoFault)
    ensures r.write.Wrote? && fault == OpenFailed ==> r.file == file
    ensures r.write.Wrote? && fault == WriteFailed ==> Load(r.file) == []
  {
    match EditSession(file, selected.Id(), selected, cmds)
    case Ended => Step(file, NoWrite, InputEnded)
    case Discarded => Step(file, NoWrite, UpdateCancelled)
    case Commit(c) =>
      var cs := Load(file);
      var cs' := ReplaceFirst(cs, selected.Id(), c);
      var saved := Save(file, cs', fault);
      Step(saved.0, Wrote(saved.1), UpdateSaved(c))
  }

  /** A committed update stands in the `EditedFrom` relation to the client
      selected: keys kept, only schema keys added, every field either
      unchanged or conforming, the id unchanged or not stored. */
  lemma UpdateEdits(file: File, selected: Client, cmds: seq<Command>, fault: SaveFault)
    ensures var r := Update(file, selected, cmds, fault);
            r.outcome.UpdateSaved? ==> EditedFrom(file, selected.Id(), selected, r.outcome.client)
  {
    assert KeptOrConforming(selected, selected);
    SessionEdits(file, selected.Id(), selected, selected, cmds);
  }

  /** Putting a client in place of a stored one keeps ids unique when it
      keeps that record's id or brings one no stored client has. */
  lemma ReplaceKeepsIdsUnique(clients: seq<Client>, i: int, c: Client)
    requires UniqueIds(clients) && 0 <= i < |clients|
    requires c.Id() == clients[i].Id() || (c.Id().Some? && !HasId(clients, c.Id().value))
    ensures UniqueIds(clients[i := c])
  {
    var r := clients[i := c];
    forall j, k | 0 <= j < |r| && 0 <= k < |r| && j != k && r[j].Id().Some?
      ensures r[j].Id() != r[k].Id()
    {
      if c.Id() != clients[i].Id() {
        if j == i {
          assert r[k] == clients[k];
        } else if k == i {
          assert r[j] == clients[j];
        }
      }
    }
  }

  /** Update keeps stored ids unique. */
  lemma UpdateKeepsIdsUnique(file: File, selected: Client, cmds: seq<Command>)
    requires UniqueIds(Load(file))
    ensures UniqueIds(Load(Update(file, selected, cmds, NoFault).file))
  {
    var r := Update(file, selected, cmds, NoFault);
    if r.outcome.UpdateSaved? {
      UpdateEdits(file, selected, cmds, NoFault);
      var cs := Load(file);
      match FirstIndex(cs, selected.Id())
      case None =>
      case Some(i) => ReplaceKeepsIdsUnique(cs, i, r.outcome.client);
    }
  }

  /** Under unique ids a stored client with an id is the first one with it. */
  lemma FirstIndexUnique(clients: seq<Client>, i: int)
    requires UniqueIds(clients) && 0 <= i < |clients| && clients[i].Id().Some?
    ensures FirstIndex(clients, clients[i].Id()) == Some(i)
  {
  }

  /** Saving straight away writes back exactly the list that was stored. */
  lemma UpdateUnchanged(file: File, i: int, cmds: seq<Command>)
    requires UniqueIds(Load(file)) && 0 <= i < |Load(file)| && Load(file)[i].Id().Some?
    requires cmds != [] && cmds[0] == SaveChanges
    ensures var r := Update(file, Load(file)[i], cmds, NoFault);
            r.write == Wrote(Saved) && Load(r.file) == Load(file)
  {
    FirstIndexUnique(Load(file), i);
  }

  /** Changing a stored client's id to a new one: afterwards the new id is
      stored and the old one is gone. */
  lemma UpdateRenames(file: File, i: int, cmds: seq<Command>)
    requires UniqueIds(Load(file)) && 0 <= i < |Load(file)| && Load(file)[i].Id().Some?
    requires var r := Update(file, Load(file)[i], cmds, NoFault);
             r.outcome.UpdateSaved? && r.outcome.client.Id() != Load(file)[i].Id()
    ensures var r := Update(file, Load(file)[i], cmds, NoFault);
            && r.outcome.client.Id().Some?
            && HasId(Load(r.file), r.outcome.client.Id().value)
            && !HasId(Load(r.file), Load(file)[i].Id().value)
  {
    var cs, selected := Load(file), Load(file)[i];
    var r := Update(file, selected, cmds, NoFault);
    var c := r.outcome.client;
    UpdateEdits(file, selected, cmds, NoFault);
    FirstIndexUnique(cs, i);
    var cs' := Load(r.file);
    assert cs' == cs[i := c];
    assert cs'[i] == c;
    forall j | 0 <= j < |cs'|
      ensures cs'[j].Id() != selected.Id()
    {
      if j != i {
        assert cs'[j] == cs[j];
      }
    }
  }

  /** A saved update keeps every field of the selected client that no pick
      named. */
  lemma UpdateKeepsUnpicked(file: File, selected: Client, cmds: seq<Command>, fault: SaveFault, key: string)
    requires forall i :: 0 <= i < |cmds| ==> !Names(cmds[i], key)
    ensures Update(file, selected, cmds, fault).outcome.UpdateSaved? ==>
              Update(file, selected, cmds, fault).outcome.client.Get(key) == selected.Get(key)
  {
    SessionFrame(file, selected.Id(), selected, cmds, key);
  }

  /** Picking field `k`, typing lines whose first accepted one is `v`, then
      "6": the client saved is `selected` with that field set to `v`. */
  lemma UpdateSetsField(file: File, selected: Client, k: int, attempts: seq<string>, v: string)
    requires 1 <= k <= |Keys()|
    requires TypedFirst(attempts, EditTest(file, selected.Id(), Keys()[k - 1]), v)
    ensures Update(file, selected, [Pick(k, attempts), SaveChanges], NoFault).outcome ==
              UpdateSaved(selected.With(Keys()[k - 1], v))
  {
    GetValidDataTyped(attempts, EditTest(file, selected.Id(), Keys()[k - 1]), v);
    SessionSetsField(file, selected.Id(), selected, k, Keys()[k - 1], attempts, v);
    UpdateCommits(file, selected, [Pick(k, attempts), SaveChanges], NoFault);
  }

  lemma SessionSetsField(file: File, original: Option<string>, c: Client, k: int, key: string, attempts: seq<string>, v: string)
    requires 1 <= k <= |Keys()| && Keys()[k - 1] == key
    requires GetValidData(attempts, EditTest(file, original, key)) == Some(v)
    ensures EditSession(file, original, c, [Pick(k, attempts), SaveChanges]) == Commit(c.With(key, v))
  {
    EditOnceGot(file, original, c, k, attempts, v);
    var cmds := [Pick(k, attempts), SaveChanges];
    PickGoesOn(file, original, c, k, attempts);
    var next := SessionNext(file, original, c, cmds);
    assert cmds[1..] == [SaveChanges];
  }

  /** A pick that yields a working copy is not one that fails. */
  lemma PickGoesOn(file: File, original: Option<string>, c: Client, n: int, attempts: seq<string>)
    ensures EditOnce(file, original, c, n, attempts).Some? ==> !FailsEdit(file, original, Pick(n, attempts))
  {
    if EditOnce(file, original, c, n, attempts).Some? {
      PickNotFailing(file, original, n, attempts);
    }
  }

  /** A pick fails only when it is in range and all its lines are rejected. */
  lemma PickNotFailing(file: File, original: Option<string>, n: int, attempts: seq<string>)
    requires 1 <= n <= |Keys()| ==> !AllRejected(attempts, EditTest(file, original, Keys()[n - 1]))
    ensures !FailsEdit(file, original, Pick(n, attempts))
  {
  }

  lemma EditOnceGot(file: File, original: Option<string>, c: Client, k: int, attempts: seq<string>, v: string)
    requires 1 <= k <= |Keys()|
    requires GetValidData(attempts, EditTest(file, original, Keys()[k - 1])) == Some(v)
    ensures EditOnce(file, original, c, k, attempts) == Some(c.With(Keys()[k - 1], v))
  {
  }

  /** A committed session is what a saved update reports. */
  lemma UpdateCommits(file: File, selected: Client, cmds: seq<Command>, fault: SaveFault)
    ensures EditSession(file, selected.Id(), selected, cmds).Commit? ==>
              Update(file, selected, cmds, fault).outcome == UpdateSaved(EditSession(file, selected.Id(), selected, cmds).client)
  {
  }

  /** Retyping a client's own id during its update passes the uniqueness
      test, although the id is stored. */
  lemma OwnIdEditAccepted(file: File, id: string)
    requires ValidId(id)
    ensures EditTest(file, Some(id), IdKey)(id)
  {
    assert ValidateField(file, IdKey, id, Some(id)) == Accepted;
  }

  /** Picking the id, retyping the client's own id and saving stores the
      client unchanged. */
  lemma UpdateRetypesOwnId(file: File, selected: Client, id: string)
    requires selected.Id() == Some(id) && ValidId(id)
    ensures Update(file, selected, [Pick(3, [id]), SaveChanges], NoFault).outcome == UpdateSaved(selected)
  {
    OwnIdGot(file, id);
    IdSlot(selected, id);
    UpdateKeepsValue(file, selected, 3, IdKey, [id], id);
  }

  /** Option 3 of the edit menu is the id, and a client's id is its "id" field. */
  lemma IdSlot(c: Client, id: string)
    requires c.Id() == Some(id)
    ensures 1 <= 3 <= |Keys()| && Keys()[3 - 1] == IdKey && c.Get(IdKey) == Some(id)
  {
  }

  /** An update that retypes the value a field already holds saves the
      client unchanged. */
  lemma UpdateKeepsValue(file: File, selected: Client, k: int, key: string, attempts: seq<string>, v: string)
    requires 1 <= k <= |Keys()| && Keys()[k - 1] == key && selected.Get(key) == Some(v)
    requires GetValidData(attempts, EditTest(file, selected.Id(), key)) == Some(v)
    ensures Update(file, selected, [Pick(k, attempts), SaveChanges], NoFault).outcome == UpdateSaved(selected)
  {
    SessionKeepsValue(file, selected.Id(), selected, k, key, attempts, v);
    UpdateCommits(file, selected, [Pick(k, attempts), SaveChanges], NoFault);
  }

  /** Retyping the value a field already holds commits the copy unchanged. */
  lemma SessionKeepsValue(file: File, original: Option<string>, c: Client, k: int, key: string, attempts: seq<string>, v: string)
    requires 1 <= k <= |Keys()| && Keys()[k - 1] == key && c.Get(key) == Some(v)
    requires GetValidData(attempts, EditTest(file, original, key)) == Some(v)
    ensures EditSession(file, original, c, [Pick(k, attempts), SaveChanges]) == Commit(c)
  {
    SessionSetsField(file, original, c, k, key, attempts, v);
    WithSameValue(c, key, v);
  }

  /** Setting a field to the value it holds changes nothing. */
  lemma WithSameValue(c: Client, key: string, v: string)
    requires c.Get(key) == Some(v)
    ensures c.With(key, v) == c
  {
    assert c.With(key, v).fields == c.fields;
  }

  /** A valid id typed on its own line is the first accepted line of an
      edit of that same id. */
  lemma OwnIdTyped(file: File, id: string)
    requires ValidId(id)
    ensures TypedFirst([id], EditTest(file, Some(id), IdKey), id)
  {
    assert !Text.IsSpace(id[0]) && !Text.IsSpace(id[|id| - 1]);
    Text.StripTrimmed(id);
    OwnIdEditAccepted(file, id);
    assert FirstAcceptedAt([id], EditTest(file, Some(id), IdKey), 0);
  }

  lemma OwnIdGot(file: File, id: string)
    requires ValidId(id)
    ensures GetValidData([id], EditTest(file, Some(id), IdKey)) == Some(id)
  {
    OwnIdTyped(file, id);
    GetValidDataTyped([id], EditTest(file, Some(id), IdKey), id);
  }

  /** Two stored clients sharing an id: committing the second one's update
      overwrites the first, so the second is stored twice and the first is
      lost. */
  lemma UpdateFirstOfDuplicates(a: Client, b: Client)
    requires a.Id() == b.Id()
    ensures Load(Update(Document([a, b]), b, [SaveChanges], NoFault).file) == [b, b]
  {
    var r := Update(Document([a, b]), b, [SaveChanges], NoFault);
    assert FirstIndex([a, b], b.Id()) == Some(0);
    assert Load(r.file)[0] == b && Load(r.file)[1] == b;
  }

  /** An update writes exactly when its menu reaches a "6" before any "7"
      with no pick before it running out of input: edits staged before the
      "6", unparsable lines and invalid numbers do not stop the save. */
  lemma UpdateWrites(file: File, selected: Client, cmds: seq<Command>, fault: SaveFault)
    ensures Update(file, selected, cmds, fault).write != NoWrite <==>
              exists i :: DecidedAt(cmds, i) && cmds[i].SaveChanges? && NoEditFailsBefore(file, selected.Id(), cmds, i)
  {
    SessionOutcome(file, selected.Id(), selected, cmds);
    UpdateCommits(file, selected, cmds, fault);
  }

  /** Update reports a cancel exactly when a `7` is reached before any `6`
      with no pick before it whose typed lines are all rejected; input that
      runs out is reported apart from it. */
  lemma UpdateCancels(file: File, selected: Client, cmds: seq<Command>, fault: SaveFault)
    ensures Update(file, selected, cmds, fault).outcome == UpdateCancelled <==>
              exists i :: DecidedAt(cmds, i) && cmds[i].Discard? && NoEditFailsBefore(file, selected.Id(), cmds, i)
  {
    SessionOutcome(file, selected.Id(), selected, cmds);
  }
}

=== FILE: pattern.dfy ===
/** The fragment of Python regular expressions the field rules are written
    in: a pattern is a sequence of atoms, each a bracketed character class
    (or a single literal character) with a repetition count `{min,max}`,
    `+` (`{1,}`) or none (`{1,1}`). `Match` is `re.fullmatch`: the whole
    string must be consumed. */
module Pattern {

  /** `[a-zA-Z._-]`: inclusive ranges plus single characters. */
  datatype CharClass = CharClass(ranges: seq<(char, char)>, singles: set<char>)

  predicate InRange(c: char, r: (char, char)) {
    r.0 <= c <= r.1
  }

  predicate InClass(c: char, cls: CharClass) {
    c in cls.singles || exists i :: 0 <= i < |cls.ranges| && InRange(c, cls.ranges[i])
  }

  /** Every character of `s` belongs to `cls`. */
  predicate AllIn(s: string, cls: CharClass) {
    forall i :: 0 <= i < |s| ==> InClass(s[i], cls)
  }

  datatype Bound = AtMost(n: nat) | Unbounded

  /** `[cls]{min,max}`; `max == Unbounded` is `{min,}`. */
  datatype Atom = Atom(cls: CharClass, min: nat, max: Bound)

  /** The repetition count of `a` admits a run of length `k`. */
  predicate Allows(a: Atom, k: int) {
    a.min <= k && (a.max.AtMost? ==> k <= a.max.n)
  }

  /** One character out of `chars`: `[VEJGP]`, or a literal such as `@`. */
  function OneOf(chars: set<char>): Atom {
    Atom(CharClass([], chars), 1, AtMost(1))
  }

  /** `re.fullmatch(p, s)`: `s` can be cut into consecutive runs, one per
      atom, each run as long as its atom's count allows and made only of
      characters of its class, with nothing left over. */
  predicate Match(p: seq<Atom>, s: string)
    decreases |p|
  {
    if p == [] then s == []
    else exists k :: 0 <= k <= |s| && Allows(p[0], k) && AllIn(s[..k], p[0].cls) && Match(p[1..], s[k..])
  }

  /** `re.search(p, s)`: some slice of `s` matches. */
  ghost predicate Occurs(p: seq<Atom>, s: string) {
    exists i, j :: 0 <= i <= j <= |s| && Match(p, s[i..j])
  }

  // ---- unfolding a pattern one atom at a time ----------------------------

  lemma {:induction false} MatchCons(a: Atom, p: seq<Atom>, s: string)
    ensures Match([a] + p, s) <==>
            exists k :: 0 <= k <= |s| && Allows(a, k) && AllIn(s[..k], a.cls) && Match(p, s[k..])
  {
    assert ([a] + p)[0] == a;
    assert ([a] + p)[1..] == p;
  }

  /** A one-character atom in front consumes exactly the first character. */
  lemma {:induction false} MatchOneOfCons(chars: set<char>, p: seq<Atom>, s: string)
    ensures Match([OneOf(chars)] + p, s) <==> |s| >= 1 && s[0] in chars && Match(p, s[1..])
  {
    MatchCons(OneOf(chars), p, s);
    if |s| >= 1 && s[0] in chars && Match(p, s[1..]) {
      assert AllIn(s[..1], OneOf(chars).cls);
    }
  }

  /** A pattern of a single atom matches exactly the runs it allows. */
  lemma {:induction false} MatchSingle(a: Atom, s: string)
    ensures Match([a], s) <==> Allows(a, |s|) && AllIn(s, a.cls)
  {
    assert [a] + [] == [a];
    MatchCons(a, [], s);
    if Allows(a, |s|) && AllIn(s, a.cls) {
      assert s[..|s|] == s;
      assert Match([], s[|s|..]);
    }
    if Match([a], s) {
      var k :| 0 <= k <= |s| && Allows(a, k) && AllIn(s[..k], a.cls) && Match([], s[k..]);
      assert k == |s|;
      assert s[..k] == s;
    }
  }
}

=== FILE: schema.dfy ===
/** The field schema of data_manager.py: five fields in a fixed order, each
    with a full-match format rule and a display caption. */
module Schema {
  import opened Wrappers
  import opened Pattern
  import Text

  // ---- character classes -------------------------------------------------

  const AsciiLetters: seq<(char, char)> := [('a', 'z'), ('A', 'Z')]
  const DigitRange: seq<(char, char)> := [('0', '9')]

  /** The accented vowels and `ñ` in both cases that the name rule admits on
      top of ASCII letters. Only the fact that they are a fixed set of
      non-ASCII letters matters below. */
  const ExtraLetters: set<char> := {
    '\U{00E1}', '\U{00E9}', '\U{00ED}', '\U{00F3}', '\U{00FA}',
    '\U{00C1}', '\U{00C9}', '\U{00CD}', '\U{00D3}', '\U{00DA}',
    '\U{00F1}', '\U{00D1}'
  }

  const NameClass := CharClass(AsciiLetters, ExtraLetters + Text.Whitespace + {'\'', '-'})
  const DigitClass := CharClass(DigitRange, {})
  const LocalClass := CharClass(AsciiLetters + DigitRange, {'.', '_', '%', '+', '-'})
  const DomainClass := CharClass(AsciiLetters + DigitRange, {'.', '-'})
  const LetterClass := CharClass(AsciiLetters, {})

  // ---- the five rules ----------------------------------------------------

  /** `^[a-zA-Z<accented>\s'-]{2,30}$` */
  const NamePattern: seq<Atom> := [Atom(NameClass, 2, AtMost(30))]
  /** `^[VEJGP]-\d{7,9}$` */
  const IdPattern: seq<Atom> := [OneOf({'V', 'E', 'J', 'G', 'P'}), OneOf({'-'}), Atom(DigitClass, 7, AtMost(9))]
  /** `^[a-zA-Z0-9._%+-]+@[a-zA-Z0-9.-]+\.[a-zA-Z]{2,4}$` */
  const EmailPattern: seq<Atom> :=
    [Atom(LocalClass, 1, Unbounded), OneOf({'@'}), Atom(DomainClass, 1, Unbounded),
     OneOf({'.'}), Atom(LetterClass, 2, AtMost(4))]
  /** `^\+\d{10,15}$` */
  const PhonePattern: seq<Atom> := [OneOf({'+'}), Atom(DigitClass, 10, AtMost(15))]

  /** One schema entry: the field key, its format rule and the caption shown
      when a value breaks the rule. */
  datatype FieldSpec = FieldSpec(key: string, pattern: seq<Atom>, caption: string)

  /** The schema, in the order create asks for fields, search joins them and
      the update menu numbers them. The caption "Lastd Name" is the source's. */
  const Fields: seq<FieldSpec> := [
    FieldSpec("name", NamePattern, "Name"),
    FieldSpec("last_name", NamePattern, "Lastd Name"),
    FieldSpec("id", IdPattern, "ID"),
    FieldSpec("email", EmailPattern, "Email"),
    FieldSpec("phone", PhonePattern, "Phone")
  ]

  const IdKey: string := "id"

  /** The field keys in schema order: name, last_name, id, email, phone. */
  function Keys(): (ks: seq<string>)
    ensures |ks| == |Fields|
    ensures forall i :: 0 <= i < |ks| ==> ks[i] == Fields[i].key
    ensures ks == ["name", "last_name", "id", "email", "phone"]
  {
    seq(|Fields|, i requires 0 <= i < |Fields| => Fields[i].key)
  }

  function FindSpec(fs: seq<FieldSpec>, key: string): (r: Option<FieldSpec>)
    ensures r.Some? ==> r.value in fs && r.value.key == key
    ensures r.None? ==> forall i :: 0 <= i < |fs| ==> fs[i].key != key
    decreases |fs|
  {
    if fs == [] then None
    else if fs[0].key == key then Some(fs[0])
    else FindSpec(fs[1..], key)
  }

  /** `REGEX_FIELDS.get(key)`: the entry for `key`, present exactly when
      `key` is one of the five field keys. */
  function Lookup(key: string): (r: Option<FieldSpec>)
    ensures r.Some? <==> key in Keys()
    ensures r.Some? ==> r.value.key == key && r.value in Fields
  {
    FindSpec(Fields, key)
  }

  /** No key occurs twice, and the id entry is the third. */
  lemma SchemaOrder()
    ensures forall i, j :: 0 <= i < j < |Keys()| ==> Keys()[i] != Keys()[j]
    ensures Lookup(IdKey) == Some(Fields[2])
  {
  }

  // ---- the rules read as plain predicates --------------------------------

  predicate IsAsciiLetter(c: char) {
    'a' <= c <= 'z' || 'A' <= c <= 'Z'
  }

  predicate IsDigit(c: char) {
    '0' <= c <= '9'
  }

  predicate NameChar(c: char) {
    IsAsciiLetter(c) || c in ExtraLetters || Text.IsSpace(c) || c == '\'' || c == '-'
  }

  predicate LocalChar(c: char) {
    IsAsciiLetter(c) || IsDigit(c) || c == '.' || c == '_' || c == '%' || c == '+' || c == '-'
  }

  predicate DomainChar(c: char) {
    IsAsciiLetter(c) || IsDigit(c) || c == '.' || c == '-'
  }

  /** A name or last name: 2 to 30 characters, each a letter, an accented
      letter, whitespace, an apostrophe or a hyphen. */
  predicate ValidName(s: string) {
    2 <= |s| <= 30 && forall i :: 0 <= i < |s| ==> NameChar(s[i])
  }

  /** An id: a category letter, a hyphen and 7 to 9 digits. */
  predicate ValidId(s: string) {
    9 <= |s| <= 11 && s[0] in {'V', 'E', 'J', 'G', 'P'} && s[1] == '-'
    && forall i :: 2 <= i < |s| ==> IsDigit(s[i])
  }

  /** A phone number: `+` and 10 to 15 digits. */
  predicate ValidPhone(s: string) {
    11 <= |s| <= 16 && s[0] == '+' && forall i :: 1 <= i < |s| ==> IsDigit(s[i])
  }

  /** `s` splits as local `@` domain `.` tld, with the `@` at `at` and the
      final `.` at `dot`. */
  predicate EmailSplit(s: string, at: int, dot: int) {
    && 0 < at && at + 1 < dot && dot + 3 <= |s| <= dot + 5
    && s[at] == '@' && s[dot] == '.'
    && (forall i :: 0 <= i < at ==> LocalChar(s[i]))
    && (forall i :: at < i < dot ==> DomainChar(s[i]))
    && (forall i :: dot < i < |s| ==> IsAsciiLetter(s[i]))
  }

  /** An email: a non-empty local part, `@`, a non-empty domain, `.` and a
      top-level domain of 2 to 4 ASCII letters. */
  predicate ValidEmail(s: string) {
    exists at, dot :: 0 <= at < |s| && 0 <= dot < |s| && EmailSplit(s, at, dot)
  }

  // ---- class membership ---------------------------------------------------

  lemma NameClassFact(c: char)
    ensures InClass(c, NameClass) <==> NameChar(c)
  {
    assert NameClass.ranges[0] == ('a', 'z') && NameClass.ranges[1] == ('A', 'Z');
  }

  lemma DigitClassFact(c: char)
    ensures InClass(c, DigitClass) <==> IsDigit(c)
  {
    assert DigitClass.ranges[0] == ('0', '9');
  }

  lemma LocalClassFact(c: char)
    ensures InClass(c, LocalClass) <==> LocalChar(c)
  {
    assert LocalClass.ranges[0] == ('a', 'z') && LocalClass.ranges[1] == ('A', 'Z') && LocalClass.ranges[2] == ('0', '9');
  }

  lemma DomainClassFact(c: char)
    ensures InClass(c, DomainClass) <==> DomainChar(c)
  {
    assert DomainClass.ranges[0] == ('a', 'z') && DomainClass.ranges[1] == ('A', 'Z') && DomainClass.ranges[2] == ('0', '9');
  }

  lemma LetterClassFact(c: char)
    ensures InClass(c, LetterClass) <==> IsAsciiLetter(c)
  {
    assert LetterClass.ranges[0] == ('a', 'z') && LetterClass.ranges[1] == ('A', 'Z');
  }

  lemma AllInName(s: string)
    ensures AllIn(s, NameClass) <==> forall i :: 0 <= i < |s| ==> NameChar(s[i])
  {
    forall c: char { NameClassFact(c); }
  }

  lemma AllInDigits(s: string)
    ensures AllIn(s, DigitClass) <==> forall i :: 0 <= i < |s| ==> IsDigit(s[i])
  {
    forall c: char { DigitClassFact(c); }
  }

  lemma AllInLocal(s: string)
    ensures AllIn(s, LocalClass) <==> forall i :: 0 <= i < |s| ==> LocalChar(s[i])
  {
    forall c: char { LocalClassFact(c); }
  }

  lemma AllInDomain(s: string)
    ensures AllIn(s, DomainClass) <==> forall i :: 0 <= i < |s| ==> DomainChar(s[i])
  {
    forall c: char { DomainClassFact(c); }
  }

  lemma AllInLetters(s: string)
    ensures AllIn(s, LetterClass) <==> forall i :: 0 <= i < |s| ==> IsAsciiLetter(s[i])
  {
    forall c: char { LetterClassFact(c); }
  }

  // ---- each regex means what its plain predicate says --------------------

  /** The name rule accepts exactly the plain-predicate names. */
  lemma NameRule(s: string)
    ensures Match(NamePattern, s) <==> ValidName(s)
  {
    MatchSingle(Atom(NameClass, 2, AtMost(30)), s);
    AllInName(s);
  }

  /** The id rule accepts exactly a category letter, `-` and 7 to 9 digits;
      in particular every accepted id is 9 to 11 characters long. */
  lemma IdRule(s: string)
    ensures Match(IdPattern, s) <==> ValidId(s)
  {
    var d := Atom(DigitClass, 7, AtMost(9));
    var cats := {'V', 'E', 'J', 'G', 'P'};
    assert IdPattern == [OneOf(cats)] + ([OneOf({'-'})] + [d]);
    MatchOneOfCons(cats, [OneOf({'-'})] + [d], s);
    if |s| >= 1 {
      MatchOneOfCons({'-'}, [d], s[1..]);
      if |s| >= 2 {
        assert s[1..][1..] == s[2..];
        MatchSingle(d, s[2..]);
        AllInDigits(s[2..]);
        assert (forall i :: 2 <= i < |s| ==> IsDigit(s[i])) <==>
               (forall j :: 0 <= j < |s[2..]| ==> IsDigit(s[2..][j]));
      }
    }
  }

  /** The phone rule accepts exactly `+` followed by 10 to 15 digits, so
      11 to 16 characters in all. */
  lemma PhoneRule(s: string)
    ensures Match(PhonePattern, s) <==> ValidPhone(s)
  {
    var d := Atom(DigitClass, 10, AtMost(15));
    assert PhonePattern == [OneOf({'+'})] + [d];
    MatchOneOfCons({'+'}, [d], s);
    if |s| >= 1 {
      MatchSingle(d, s[1..]);
      AllInDigits(s[1..]);
      assert (forall i :: 1 <= i < |s| ==> IsDigit(s[i])) <==>
             (forall j :: 0 <= j < |s[1..]| ==> IsDigit(s[1..][j]));
    }
  }

  // ---- the email rule, one atom at a time --------------------------------

  const LocalAtom := Atom(LocalClass, 1, Unbounded)
  const DomainAtom := Atom(DomainClass, 1, Unbounded)
  const TldAtom := Atom(LetterClass, 2, AtMost(4))

  /** `.` followed by 2 to 4 letters, and nothing else. */
  predicate TldPart(v: string) {
    3 <= |v| <= 5 && v[0] == '.' && forall i :: 1 <= i < |v| ==> IsAsciiLetter(v[i])
  }

  /** A non-empty domain run ending where a `TldPart` starts. */
  predicate DomainPart(u: string) {
    exists d :: 1 <= d <= |u| && (forall i :: 0 <= i < d ==> DomainChar(u[i])) && TldPart(u[d..])
  }

  lemma {:induction false} TldStep(v: string)
    ensures Match([OneOf({'.'}), TldAtom], v) <==> TldPart(v)
  {
    assert [OneOf({'.'}), TldAtom] == [OneOf({'.'})] + [TldAtom];
    MatchOneOfCons({'.'}, [TldAtom], v);
    if |v| >= 1 {
      MatchSingle(TldAtom, v[1..]);
      AllInLetters(v[1..]);
      assert (forall i :: 1 <= i < |v| ==> IsAsciiLetter(v[i])) <==>
             (forall j :: 0 <= j < |v[1..]| ==> IsAsciiLetter(v[1..][j]));
    }
  }

  lemma {:induction false} DomainStep(u: string)
    ensures Match([DomainAtom, OneOf({'.'}), TldAtom], u) <==> DomainPart(u)
  {
    if Match([DomainAtom, OneOf({'.'}), TldAtom], u) {
      DomainStepOnly(u);
    }
    if DomainPart(u) {
      DomainStepIf(u);
    }
  }

  lemma {:induction false} DomainStepOnly(u: string)
    requires Match([DomainAtom, OneOf({'.'}), TldAtom], u)
    ensures DomainPart(u)
  {
    var p := [OneOf({'.'}), TldAtom];
    assert [DomainAtom, OneOf({'.'}), TldAtom] == [DomainAtom] + p;
    MatchCons(DomainAtom, p, u);
    var k :| 0 <= k <= |u| && Allows(DomainAtom, k) && AllIn(u[..k], DomainAtom.cls) && Match(p, u[k..]);
    TldStep(u[k..]);
    AllInDomain(u[..k]);
    assert forall i :: 0 <= i < k ==> u[..k][i] == u[i];
    assert 1 <= k <= |u| && (forall i :: 0 <= i < k ==> DomainChar(u[i])) && TldPart(u[k..]);
  }

  lemma {:induction false} DomainStepIf(u: string)
    requires DomainPart(u)
    ensures Match([DomainAtom, OneOf({'.'}), TldAtom], u)
  {
    var p := [OneOf({'.'}), TldAtom];
    assert [DomainAtom, OneOf({'.'}), TldAtom] == [DomainAtom] + p;
    var d :| 1 <= d <= |u| && (forall i :: 0 <= i < d ==> DomainChar(u[i])) && TldPart(u[d..]);
    TldStep(u[d..]);
    AllInDomain(u[..d]);
    assert forall i :: 0 <= i < d ==> u[..d][i] == u[i];
    assert 0 <= d <= |u| && Allows(DomainAtom, d) && AllIn(u[..d], DomainAtom.cls) && Match(p, u[d..]);
    MatchCons(DomainAtom, p, u);
  }

  lemma {:induction false} AtStep(w: string)
    ensures Match([OneOf({'@'}), DomainAtom, OneOf({'.'}), TldAtom], w) <==>
            |w| >= 1 && w[0] == '@' && DomainPart(w[1..])
  {
    assert [OneOf({'@'}), DomainAtom, OneOf({'.'}), TldAtom] ==
           [OneOf({'@'})] + [DomainAtom, OneOf({'.'}), TldAtom];
    MatchOneOfCons({'@'}, [DomainAtom, OneOf({'.'}), TldAtom], w);
    if |w| >= 1 {
      DomainStep(w[1..]);
    }
  }

  /** The local part runs up to an `@` at index `a`, followed by a domain part. */
  predicate LocalThenDomain(s: string, a: int) {
    1 <= a < |s| && (forall i :: 0 <= i < a ==> LocalChar(s[i])) && s[a] == '@' && DomainPart(s[a + 1..])
  }

  /** The email rule, read relative to where the local part ends. */
  lemma {:induction false} LocalStep(s: string)
    ensures Match(EmailPattern, s) <==> exists a :: 0 <= a < |s| && LocalThenDomain(s, a)
  {
    if Match(EmailPattern, s) {
      LocalStepOnly(s);
    }
    if exists a :: 0 <= a < |s| && LocalThenDomain(s, a) {
      var a :| 0 <= a < |s| && LocalThenDomain(s, a);
      LocalStepIf(s, a);
    }
  }

  lemma {:induction false} LocalStepOnly(s: string)
    requires Match(EmailPattern, s)
    ensures exists a :: 0 <= a < |s| && LocalThenDomain(s, a)
  {
    var rest := [OneOf({'@'}), DomainAtom, OneOf({'.'}), TldAtom];
    assert EmailPattern == [LocalAtom] + rest;
    MatchCons(LocalAtom, rest, s);
    var k :| 0 <= k <= |s| && Allows(LocalAtom, k) && AllIn(s[..k], LocalAtom.cls) && Match(rest, s[k..]);
    LocalPrefix(s, k);
    AtRest(s, k);
    assert LocalThenDomain(s, k);
  }

  lemma LocalPrefix(s: string, k: int)
    requires 0 <= k <= |s| && AllIn(s[..k], LocalClass)
    ensures forall i :: 0 <= i < k ==> LocalChar(s[i])
  {
    AllInLocal(s[..k]);
    assert forall i :: 0 <= i < k ==> s[..k][i] == s[i];
  }

  lemma AtRest(s: string, k: int)
    requires 0 <= k <= |s| && Match([OneOf({'@'}), DomainAtom, OneOf({'.'}), TldAtom], s[k..])
    ensures k < |s| && s[k] == '@' && DomainPart(s[k + 1..])
  {
    AtStep(s[k..]);
    assert s[k..][1..] == s[k + 1..];
  }

  lemma {:induction false} LocalStepIf(s: string, a: int)
    requires LocalThenDomain(s, a)
    ensures Match(EmailPattern, s)
  {
    var rest := [OneOf({'@'}), DomainAtom, OneOf({'.'}), TldAtom];
    assert EmailPattern == [LocalAtom] + rest;
    AtStep(s[a..]);
    AllInLocal(s[..a]);
    assert forall i :: 0 <= i < a ==> s[..a][i] == s[i];
    assert s[a..][1..] == s[a + 1..];
    assert 0 <= a <= |s| && Allows(LocalAtom, a) && AllIn(s[..a], LocalAtom.cls) && Match(rest, s[a..]);
    MatchCons(LocalAtom, rest, s);
  }

  /** The email rule accepts exactly the strings that split as local part,
      `@`, domain, `.` and a 2 to 4 letter top-level domain. */
  lemma {:induction false} EmailRule(s: string)
    ensures Match(EmailPattern, s) <==> ValidEmail(s)
  {
    LocalStep(s);
    if exists a :: 0 <= a < |s| && LocalThenDomain(s, a) {
      var a :| 0 <= a < |s| && LocalThenDomain(s, a);
      SplitFromLocal(s, a);
    }
    if ValidEmail(s) {
      var at, dot :| 0 <= at < |s| && 0 <= dot < |s| && EmailSplit(s, at, dot);
      LocalFromSplit(s, at, dot);
    }
  }

  lemma {:induction false} SplitFromLocal(s: string, a: int)
    requires LocalThenDomain(s, a)
    ensures ValidEmail(s)
  {
    var u := s[a + 1..];
    var d :| 1 <= d <= |u| && (forall i :: 0 <= i < d ==> DomainChar(u[i])) && TldPart(u[d..]);
    var dot := a + 1 + d;
    assert u[d..] == s[dot..];
    assert forall i :: a < i < dot ==> s[i] == u[i - a - 1];
    assert forall i :: dot < i < |s| ==> s[i] == s[dot..][i - dot];
    assert EmailSplit(s, a, dot);
  }

  lemma {:induction false} LocalFromSplit(s: string, at: int, dot: int)
    requires EmailSplit(s, at, dot)
    ensures LocalThenDomain(s, at)
  {
    var u := s[at + 1..];
    var d := dot - at - 1;
    assert u[d..] == s[dot..];
    assert forall i :: 0 <= i < d ==> u[i] == s[at + 1 + i];
    assert forall i :: 1 <= i < |u[d..]| ==> u[d..][i] == s[dot + i];
    assert TldPart(u[d..]);
    assert DomainPart(u);
  }

  /** An accepted email has exactly one `@`, and its top-level domain
      follows the last `.`. */
  lemma EmailShape(s: string, at: int, dot: int)
    requires EmailSplit(s, at, dot)
    ensures forall i :: 0 <= i < |s| && s[i] == '@' ==> i == at
    ensures forall i :: dot < i < |s| ==> s[i] != '.'
    ensures at < dot
  {
  }

  /** Anchoring: a slice of `V-1234567x` matches the id rule, but the
      whole-string match rejects it. */
  lemma PartialMatchRejected()
    ensures Occurs(IdPattern, "V-1234567x")
    ensures !Match(IdPattern, "V-1234567x")
    ensures !Match(IdPattern, "xV-1234567")
  {
    var s := "V-1234567x";
    IdRule(s);
    IdRule("xV-1234567");
    IdRule(s[0..9]);
    assert ValidId(s[0..9]);
    assert s[9] == 'x';
  }
}

=== FILE: search.dfy ===
/** The search of client_actions.py: case-insensitive substring search
    over the text of each client's five fields joined in schema order. */
module Search {
  import opened Wrappers
  import opened Text
  import opened Seqs
  import opened Schema
  import opened Store

  /** The five field values of `c` in schema order, `''` for a missing one. */
  function FieldValues(c: Client): (vs: seq<string>)
    ensures vs == [c.Get("name").GetOr(""), c.Get("last_name").GetOr(""), c.Get("id").GetOr(""),
                   c.Get("email").GetOr(""), c.Get("phone").GetOr("")]
    ensures |vs| == |Keys()|
    ensures forall i :: 0 <= i < |vs| ==> vs[i] == c.Get(Keys()[i]).GetOr("")
  {
    var vs := seq(|Keys()|, i requires 0 <= i < |Keys()| => c.Get(Keys()[i]).GetOr(""));
    assert vs[0] == c.Get("name").GetOr("") && vs[1] == c.Get("last_name").GetOr("")
        && vs[2] == c.Get("id").GetOr("") && vs[3] == c.Get("email").GetOr("")
        && vs[4] == c.Get("phone").GetOr("");
    vs
  }

  /** The lowercased, space-joined text a client is searched by: it has no
      upper-case ASCII letter left and holds every field, lowercased. */
  function SearchText(c: Client): (t: string)
    ensures Lower(t) == t
    ensures forall k :: 0 <= k < |Keys()| ==> Contains(t, Lower(c.Get(Keys()[k]).GetOr("")))
  {
    SearchTextFields(c);
    LowerIdempotent(Join(FieldValues(c), " "));
    Lower(Join(FieldValues(c), " "))
  }

  lemma SearchTextFields(c: Client)
    ensures forall k :: 0 <= k < |Keys()| ==>
              Contains(Lower(Join(FieldValues(c), " ")), Lower(c.Get(Keys()[k]).GetOr("")))
  {
    var vs := FieldValues(c);
    forall k | 0 <= k < |Keys()|
      ensures Contains(Lower(Join(vs, " ")), Lower(c.Get(Keys()[k]).GetOr("")))
    {
      JoinContainsPart(vs, " ", k);
      ContainsLower(Join(vs, " "), vs[k]);
    }
  }

  /** The criterion as compared: no upper-case ASCII letter and no
      whitespace at either end; stripping and lowering may be applied in
      either order. */
  function Normalize(criterion: string): (q: string)
    ensures Lower(q) == q
    ensures q != [] ==> !IsSpace(q[0]) && !IsSpace(q[|q| - 1])
    ensures q == Strip(Lower(criterion))
  {
    NormalizeFacts(criterion);
    Lower(Strip(criterion))
  }

  lemma NormalizeFacts(criterion: string)
    ensures Lower(Lower(Strip(criterion))) == Lower(Strip(criterion))
    ensures Lower(Strip(criterion)) == Strip(Lower(criterion))
    ensures var q := Lower(Strip(criterion)); q != [] ==> !IsSpace(q[0]) && !IsSpace(q[|q| - 1])
  {
    LowerIdempotent(Strip(criterion));
    StripLowerCommute(criterion);
    NormalizeEnds(criterion);
  }

  lemma NormalizeEnds(criterion: string)
    ensures var q := Lower(Strip(criterion)); q != [] ==> !IsSpace(q[0]) && !IsSpace(q[|q| - 1])
  {
    var s := Strip(criterion);
    StripEnds(criterion);
    if s != [] {
      LowerKeepsSpace(s[0]);
      LowerKeepsSpace(s[|s| - 1]);
    }
  }

  /** `c` is a hit for `criterion`. */
  predicate IsHit(criterion: string, c: Client) {
    Contains(SearchText(c), Normalize(criterion))
  }

  /** `find_matches`: the clients that are hits, in their original order
      and with their original multiplicity; nothing else. */
  function FindMatches(clients: seq<Client>, criterion: string): (r: seq<Client>)
    ensures IsSubsequence(r, clients)
    ensures forall c :: multiset(r)[c] == if IsHit(criterion, c) then multiset(clients)[c] else 0
  {
    FilterSpec(clients, c => IsHit(criterion, c));
    Filter(clients, c => IsHit(criterion, c))
  }

  /** The case of the criterion does not matter: two criteria that lower to
      the same text find the same clients. */
  lemma CaseInsensitive(clients: seq<Client>, q1: string, q2: string)
    requires Lower(q1) == Lower(q2)
    ensures FindMatches(clients, q1) == FindMatches(clients, q2)
  {
    StripLowerCommute(q1);
    StripLowerCommute(q2);
    assert Normalize(q1) == Normalize(q2);
    FilterCongruent(clients, c => IsHit(q1, c), c => IsHit(q2, c));
  }

  /** Surrounding whitespace in the criterion does not matter either. */
  lemma StripInsensitive(clients: seq<Client>, q: string)
    ensures FindMatches(clients, Strip(q)) == FindMatches(clients, q)
  {
    StripEnds(q);
    StripTrimmed(Strip(q));
    assert Normalize(Strip(q)) == Normalize(q);
    FilterCongruent(clients, c => IsHit(Strip(q), c), c => IsHit(q, c));
  }

  /** Searching the results again with the same criterion finds them all. */
  lemma SearchIdempotent(clients: seq<Client>, q: string)
    ensures FindMatches(FindMatches(clients, q), q) == FindMatches(clients, q)
  {
    FilterIdempotent(clients, c => IsHit(q, c));
  }

  /** Searching a concatenation searches each part, results in order. */
  lemma SearchAppend(a: seq<Client>, b: seq<Client>, q: string)
    ensures FindMatches(a + b, q) == FindMatches(a, q) + FindMatches(b, q)
  {
    FilterAppend(a, b, c => IsHit(q, c));
  }

  /** A client one of whose fields contains the criterion, ignoring case,
      is a hit. */
  lemma FieldHit(c: Client, k: int, q: string)
    requires 0 <= k < |Keys()|
    requires Contains(Lower(c.Get(Keys()[k]).GetOr("")), Normalize(q))
    ensures IsHit(q, c)
  {
    ContainsTransitive(SearchText(c), Lower(c.Get(Keys()[k]).GetOr("")), Normalize(q));
  }

  /** A criterion that is empty once stripped matches every client. */
  lemma BlankCriterion(clients: seq<Client>, q: string)
    requires Strip(q) == ""
    ensures FindMatches(clients, q) == clients
  {
    assert Normalize(q) == "";
    forall c: Client
      ensures IsHit(q, c)
    {
      ContainsEmpty(SearchText(c));
    }
    FilterShorter(clients, c => IsHit(q, c));
  }
}

=== FILE: seqs.dfy ===
/** Order-preserving filtering of sequences, the shape shared by the list
    comprehension of delete and the result-building loop of search. */
module Seqs {

  /** `a` is obtained from `b` by deleting elements, keeping the order. */
  ghost predicate IsSubsequence<T>(a: seq<T>, b: seq<T>)
    decreases |b|
  {
    a == [] || (b != [] && ((a[0] == b[0] && IsSubsequence(a[1..], b[1..])) || IsSubsequence(a, b[1..])))
  }

  /** The elements of `s` for which `keep` holds, in their original order and
      with their original multiplicity. */
  function Filter<T>(s: seq<T>, keep: T -> bool): seq<T>
    decreases |s|
  {
    if s == [] then []
    else
      var rest := Filter(s[1..], keep);
      if keep(s[0]) then [s[0]] + rest else rest
  }

  /** The filter keeps the order of what it keeps, keeps each kept element
      as often as it occurs, and drops every element that fails the test. */
  lemma {:induction false} FilterSpec<T>(s: seq<T>, keep: T -> bool)
    ensures |Filter(s, keep)| <= |s|
    ensures IsSubsequence(Filter(s, keep), s)
    ensures forall x :: multiset(Filter(s, keep))[x] == if keep(x) then multiset(s)[x] else 0
    decreases |s|
  {
    if s != [] {
      FilterSpec(s[1..], keep);
      assert s == [s[0]] + s[1..];
      var rest := Filter(s[1..], keep);
      if keep(s[0]) {
        assert ([s[0]] + rest)[1..] == rest;
      }
      SubsequenceOfTail(rest, s);
    }
  }

  lemma {:induction false} SubsequenceOfTail<T>(a: seq<T>, b: seq<T>)
    requires b != [] && IsSubsequence(a, b[1..])
    ensures IsSubsequence(a, b)
  {
  }

  /** Filtering distributes over concatenation. */
  lemma {:induction false} FilterAppend<T>(a: seq<T>, b: seq<T>, keep: T -> bool)
    ensures Filter(a + b, keep) == Filter(a, keep) + Filter(b, keep)
    decreases |a|
  {
    if a == [] {
      assert a + b == b;
    } else {
      var ab := a + b;
      assert ab[0] == a[0];
      assert ab[1..] == a[1..] + b;
      FilterAppend(a[1..], b, keep);
      var head := if keep(a[0]) then [a[0]] else [];
      assert Filter(ab, keep) == head + Filter(ab[1..], keep);
      assert Filter(a, keep) == head + Filter(a[1..], keep);
    }
  }

  /** Two tests that agree on every element select the same elements. */
  lemma {:induction false} FilterCongruent<T>(s: seq<T>, k1: T -> bool, k2: T -> bool)
    requires forall x :: x in s ==> k1(x) == k2(x)
    ensures Filter(s, k1) == Filter(s, k2)
    decreases |s|
  {
    if s != [] {
      assert forall x :: x in s[1..] ==> x in s;
      FilterCongruent(s[1..], k1, k2);
    }
  }

  /** Every element of a filtered sequence passes the test. */
  lemma FilterAllKept<T>(s: seq<T>, keep: T -> bool)
    ensures forall x :: x in Filter(s, keep) ==> x in s && keep(x)
  {
    var r := Filter(s, keep);
    FilterSpec(s, keep);
    forall x | x in r
      ensures x in s && keep(x)
    {
      assert multiset(r)[x] > 0;
    }
  }

  /** Filtering with the same test twice changes nothing more. */
  lemma {:induction false} FilterIdempotent<T>(s: seq<T>, keep: T -> bool)
    ensures Filter(Filter(s, keep), keep) == Filter(s, keep)
    decreases |s|
  {
    if s != [] {
      FilterIdempotent(s[1..], keep);
      var rest := Filter(s[1..], keep);
      if keep(s[0]) {
        assert ([s[0]] + rest)[1..] == rest;
      }
    }
  }

  /** The filter drops something exactly when some element fails the test;
      when nothing fails it returns the sequence itself. */
  lemma {:induction false} FilterShorter<T>(s: seq<T>, keep: T -> bool)
    ensures |Filter(s, keep)| < |s| <==> exists i :: 0 <= i < |s| && !keep(s[i])
    ensures (forall i :: 0 <= i < |s| ==> keep(s[i])) ==> Filter(s, keep) == s
    decreases |s|
  {
    if s != [] {
      FilterShorter(s[1..], keep);
      if exists i :: 0 <= i < |s| && !keep(s[i]) {
        var i :| 0 <= i < |s| && !keep(s[i]);
        if i > 0 {
          assert !keep(s[1..][i - 1]);
        }
      }
      if exists i :: 0 <= i < |s| - 1 && !keep(s[1..][i]) {
        var i :| 0 <= i < |s| - 1 && !keep(s[1..][i]);
        assert !keep(s[i + 1]);
      }
    }
  }
}

=== FILE: store.dfy ===
/** The persisted client list of data_manager.py, with the JSON file
    reduced to the three states the loader distinguishes. */
module Store {
  import opened Wrappers

  /** One stored client: the JSON object, as a map from key to value. A
      client read back from the file is trusted as it is, so it may lack
      some of the five schema keys or carry others. */
  datatype Client = Client(fields: map<string, string>) {

    /** `client.get(key)` */
    function Get(key: string): Option<string> {
      if key in fields then Some(fields[key]) else None
    }

    /** `client.get('id')` */
    function Id(): Option<string> {
      Get("id")
    }

    /** `client[key] = value` */
    function With(key: string, value: string): (c: Client)
      ensures c.Get(key) == Some(value)
      ensures forall k :: k != key ==> c.Get(k) == Get(k)
      ensures c.fields.Keys == fields.Keys + {key}
    {
      Client(fields[key := value])
    }
  }

  /** The data file: absent, present but not a JSON document, or a JSON
      array of client objects. */
  datatype File = Missing | Corrupt | Document(clients: seq<Client>)

  /** What the environment does to a save: nothing, refuse to open the file
      for writing (it is left as it was), or fail while writing (opening
      for writing has already emptied it, so what remains is not JSON). */
  datatype SaveFault = NoFault | OpenFailed | WriteFailed

  /** Whether the save stayed silent (`Saved`) or printed its error message
      (`SaveError`); the save itself never prints a success message. */
  datatype SaveReport = Saved | SaveError

  /** `load_clients`: the stored list; an absent or undecodable file reads
      as the empty list instead of raising. */
  function Load(f: File): (clients: seq<Client>)
    ensures f.Document? || clients == []
  {
    match f
    case Document(cs) => cs
    case _ => []
  }

  /** `save_clients`: overwrite the file with the whole list. The error is
      caught and reported, never raised. A successful save is read back as
      exactly the saved list; a failed one leaves either the old list or,
      when the file was already emptied, nothing. */
  function Save(f: File, clients: seq<Client>, fault: SaveFault): (r: (File, SaveReport))
    ensures r.1 == Saved <==> fault == NoFault
    ensures fault == NoFault ==> Load(r.0) == clients
    ensures fault == OpenFailed ==> r.0 == f
    ensures fault != NoFault ==> Load(r.0) == Load(f) || Load(r.0) == []
    ensures fault == WriteFailed ==> Load(r.0) == []
  {
    match fault
    case NoFault => (Document(clients), Saved)
    case OpenFailed => (f, SaveError)
    case WriteFailed => (Corrupt, SaveError)
  }

  // ---- ids across a collection -------------------------------------------

  /** Some stored client has `id` as its id. */
  predicate HasId(clients: seq<Client>, id: string) {
    exists i :: 0 <= i < |clients| && clients[i].Id() == Some(id)
  }

  /** No two stored clients share an id (clients without one are ignored).
      The source keeps this at create and id-edit time, never at load. */
  ghost predicate UniqueIds(clients: seq<Client>) {
    forall i, j :: 0 <= i < |clients| && 0 <= j < |clients| && i != j && clients[i].Id().Some?
      ==> clients[i].Id() != clients[j].Id()
  }
}

=== FILE: text.dfy ===
/** The few Python string builtins the registry relies on (`lower`, `strip`,
    `in` on strings, `str.join`), restricted to ASCII. */
module Text {

  /** The ASCII characters Python's `str.strip()` and the `\s` of `re`
      treat as whitespace: space, tab, line feed, vertical tab, form feed,
      carriage return and the four separators U+001C to U+001F. */
  const Whitespace: set<char> := {
    ' ', '\t', '\n', '\U{000B}', '\U{000C}', '\r',
    '\U{001C}', '\U{001D}', '\U{001E}', '\U{001F}'
  }

  predicate IsSpace(c: char) {
    c in Whitespace
  }

  predicate IsUpper(c: char) {
    'A' <= c <= 'Z'
  }

  function LowerChar(c: char): char {
    if IsUpper(c) then (c as int + 32) as char else c
  }

  /** `str.lower()` on ASCII letters; every other character is kept. */
  function Lower(s: string): string {
    seq(|s|, i requires 0 <= i < |s| => LowerChar(s[i]))
  }

  /** Leading whitespace removed. */
  function StripLeft(s: string): string
    decreases |s|
  {
    if s != [] && IsSpace(s[0]) then StripLeft(s[1..]) else s
  }

  /** Trailing whitespace removed. */
  function StripRight(s: string): string
    decreases |s|
  {
    if s != [] && IsSpace(s[|s| - 1]) then StripRight(s[..|s| - 1]) else s
  }

  /** `str.strip()` */
  function Strip(s: string): string {
    StripRight(StripLeft(s))
  }

  /** `pat` occurs in `text` starting at index `i`. */
  predicate OccursAt(text: string, pat: string, i: int) {
    0 <= i && i + |pat| <= |text| && text[i..i + |pat|] == pat
  }

  /** Python's `pat in text` on strings. */
  predicate Contains(text: string, pat: string) {
    exists i :: 0 <= i <= |text| && OccursAt(text, pat, i)
  }

  /** `sep.join(parts)`. */
  function Join(parts: seq<string>, sep: string): string
    decreases |parts|
  {
    if |parts| == 0 then ""
    else if |parts| == 1 then parts[0]
    else parts[0] + sep + Join(parts[1..], sep)
  }

  // ---- facts about the builtins -------------------------------------------

  lemma LowerSlice(s: string, i: int, j: int)
    requires 0 <= i <= j <= |s|
    ensures Lower(s[i..j]) == Lower(s)[i..j]
  {
  }

  /** Lowering is idempotent. */
  lemma LowerIdempotent(s: string)
    ensures Lower(Lower(s)) == Lower(s)
  {
  }

  /** Lowering never turns whitespace into non-whitespace or back. */
  lemma LowerKeepsSpace(c: char)
    ensures IsSpace(LowerChar(c)) == IsSpace(c)
  {
  }

  lemma {:induction false} StripLeftLower(s: string)
    ensures StripLeft(Lower(s)) == Lower(StripLeft(s))
    decreases |s|
  {
    if s != [] {
      LowerKeepsSpace(s[0]);
      if IsSpace(s[0]) {
        assert Lower(s)[1..] == Lower(s[1..]);
        StripLeftLower(s[1..]);
      }
    }
  }

  lemma {:induction false} StripRightLower(s: string)
    ensures StripRight(Lower(s)) == Lower(StripRight(s))
    decreases |s|
  {
    if s != [] {
      LowerKeepsSpace(s[|s| - 1]);
      if IsSpace(s[|s| - 1]) {
        assert Lower(s)[..|s| - 1] == Lower(s[..|s| - 1]);
        StripRightLower(s[..|s| - 1]);
      }
    }
  }

  /** What `StripLeft` leaves is a suffix of `s`, everything dropped is
      whitespace, and what is left does not start with whitespace. */
  lemma {:induction false} StripLeftSpec(s: string)
    ensures |StripLeft(s)| <= |s| && StripLeft(s) == s[|s| - |StripLeft(s)|..]
    ensures forall k :: 0 <= k < |s| - |StripLeft(s)| ==> IsSpace(s[k])
    ensures StripLeft(s) != [] ==> !IsSpace(StripLeft(s)[0])
    decreases |s|
  {
    if s != [] && IsSpace(s[0]) {
      StripLeftSpec(s[1..]);
      assert forall k :: 1 <= k < |s| ==> s[k] == s[1..][k - 1];
    }
  }

  /** The mirror image of `StripLeftSpec`. */
  lemma {:induction false} StripRightSpec(s: string)
    ensures |StripRight(s)| <= |s| && StripRight(s) == s[..|StripRight(s)|]
    ensures forall k :: |StripRight(s)| <= k < |s| ==> IsSpace(s[k])
    ensures StripRight(s) != [] ==> !IsSpace(StripRight(s)[|StripRight(s)| - 1])
    decreases |s|
  {
    if s != [] && IsSpace(s[|s| - 1]) {
      StripRightSpec(s[..|s| - 1]);
    }
  }

  /** `Strip(s)` is the slice of `s` starting at some `i` with only
      whitespace cut off either end. */
  lemma {:induction false} StripSpec(s: string)
    ensures exists i :: OccursAt(s, Strip(s), i)
                        && (forall k :: 0 <= k < i ==> IsSpace(s[k]))
                        && (forall k :: i + |Strip(s)| <= k < |s| ==> IsSpace(s[k]))
  {
    var l := StripLeft(s);
    StripLeftSpec(s);
    StripRightSpec(l);
    var r := StripRight(l);
    var i := |s| - |l|;
    assert r == s[i..i + |r|] by {
      assert l == s[i..];
      assert r == l[..|r|];
    }
    assert Strip(s) == r;
    forall k | i + |r| <= k < |s|
      ensures IsSpace(s[k])
    {
      assert s[k] == l[k - i];
    }
    assert OccursAt(s, Strip(s), i);
  }

  /** `Strip(s)` neither starts nor ends with whitespace. */
  lemma {:induction false} StripEnds(s: string)
    ensures Strip(s) != [] ==> !IsSpace(Strip(s)[0]) && !IsSpace(Strip(s)[|Strip(s)| - 1])
  {
    var l := StripLeft(s);
    StripLeftSpec(s);
    StripRightSpec(l);
    var r := StripRight(l);
    if r != [] {
      assert r == l[..|r|];
      assert r[0] == l[0];
    }
  }

  /** A string with no whitespace at either end is its own strip. */
  lemma {:induction false} StripTrimmed(s: string)
    requires s == [] || (!IsSpace(s[0]) && !IsSpace(s[|s| - 1]))
    ensures Strip(s) == s
  {
  }

  /** Stripping and lowering commute, so the order the source applies them in
      does not matter. */
  lemma StripLowerCommute(s: string)
    ensures Strip(Lower(s)) == Lower(Strip(s))
  {
    StripLeftLower(s);
    StripRightLower(StripLeft(s));
  }

  /** A substring of a substring is a substring. */
  lemma ContainsTransitive(a: string, b: string, c: string)
    requires Contains(a, b) && Contains(b, c)
    ensures Contains(a, c)
  {
    var i :| 0 <= i <= |a| && OccursAt(a, b, i);
    var j :| 0 <= j <= |b| && OccursAt(b, c, j);
    assert a[i..i + |b|] == b;
    var x, y := a[i + j..i + j + |c|], b[j..j + |c|];
    forall k | 0 <= k < |c|
      ensures x[k] == y[k]
    {
      assert b[j + k] == a[i..i + |b|][j + k];
    }
    assert x == y;
    assert OccursAt(a, c, i + j);
  }

  /** Lowering both sides keeps a substring a substring. */
  lemma ContainsLower(a: string, b: string)
    requires Contains(a, b)
    ensures Contains(Lower(a), Lower(b))
  {
    var i :| 0 <= i <= |a| && OccursAt(a, b, i);
    LowerSlice(a, i, i + |b|);
    assert OccursAt(Lower(a), Lower(b), i);
  }

  /** Every part of a join appears in the joined text. */
  lemma {:induction false} JoinContainsPart(parts: seq<string>, sep: string, k: int)
    requires 0 <= k < |parts|
    ensures Contains(Join(parts, sep), parts[k])
    decreases |parts|
  {
    var t := Join(parts, sep);
    if |parts| == 1 || k == 0 {
      assert OccursAt(t, parts[0], 0);
    } else {
      JoinContainsPart(parts[1..], sep, k - 1);
      var rest := Join(parts[1..], sep);
      var off := |parts[0]| + |sep|;
      assert t[off..] == rest;
      assert OccursAt(t, rest, off);
      ContainsTransitive(t, rest, parts[k]);
    }
  }

  /** Every string contains the empty string. */
  lemma ContainsEmpty(t: string)
    ensures Contains(t, "")
  {
    assert OccursAt(t, "", 0);
  }
}

=== FILE: validator.dfy ===
/** Field validation of client_actions.py: the format check of a value
    against its field's rule, the collection-wide id uniqueness check, and
    the retry loop that asks for a value until one is accepted. */
module Validator {
  import opened Wrappers
  import opened Pattern
  import opened Schema
  import opened Store
  import Text

  /** The result of `validate_field`, with the reason it printed on a
      rejection: an unknown key, the caption of the broken rule, or the
      id that already exists. */
  datatype Verdict = Accepted | UnknownField | FormatError(caption: string) | DuplicateId(id: string)

  /** The loop of `is_id_unique` over the loaded list: it fails at the
      first client holding `id`, unless `id` is the caller's own current id. */
  function ScanIds(clients: seq<Client>, id: string, current: Option<string>): (unique: bool)
    ensures !unique <==> HasId(clients, id) && Some(id) != current
    decreases |clients|
  {
    if clients == [] then true
    else if clients[0].Id() == Some(id) && Some(id) != current then false
    else
      assert forall i :: 0 < i < |clients| ==> clients[i] == clients[1..][i - 1];
      ScanIds(clients[1..], id, current)
  }

  /** `is_id_unique(id, current)`: false exactly when a stored client has
      that id and it is not the caller's own current id. */
  function IsIdUnique(file: File, id: string, current: Option<string>): (unique: bool)
    ensures !unique <==> HasId(Load(file), id) && Some(id) != current
  {
    ScanIds(Load(file), id, current)
  }

  /** `validate_regex`: the whole value must match the rule. For each of
      the schema's rules that is exactly its plain reading. */
  function ValidateRegex(spec: FieldSpec, value: string): (ok: bool)
    ensures spec.pattern == NamePattern ==> (ok <==> ValidName(value))
    ensures spec.pattern == IdPattern ==> (ok <==> ValidId(value))
    ensures spec.pattern == EmailPattern ==> (ok <==> ValidEmail(value))
    ensures spec.pattern == PhonePattern ==> (ok <==> ValidPhone(value))
  {
    NameRule(value);
    IdRule(value);
    EmailRule(value);
    PhoneRule(value);
    Match(spec.pattern, value)
  }

  /** The schema read as plain predicates: `value` is well-formed for the
      field called `key`. */
  predicate Conforms(key: string, value: string) {
    || (key == "name" && ValidName(value))
    || (key == "last_name" && ValidName(value))
    || (key == "id" && ValidId(value))
    || (key == "email" && ValidEmail(value))
    || (key == "phone" && ValidPhone(value))
  }

  /** `validate_field`: an unknown key is rejected; otherwise the format
      is checked first and a malformed value is rejected whatever the store
      holds; only then, and only for the id field, is uniqueness checked. */
  function ValidateField(file: File, key: string, value: string, current: Option<string>): (v: Verdict)
    ensures v == UnknownField <==> key !in Keys()
    ensures v.FormatError? <==> key in Keys() && !Conforms(key, value)
    ensures v.FormatError? ==> Lookup(key).Some? && v.caption == Lookup(key).value.caption
    ensures v.DuplicateId? <==> key == IdKey && ValidId(value) && HasId(Load(file), value) && Some(value) != current
    ensures v == Accepted <==>
              Conforms(key, value) && (key == IdKey ==> !HasId(Load(file), value) || Some(value) == current)
  {
    SchemaOrder();
    match Lookup(key)
    case None => UnknownField
    case Some(spec) =>
      if !ValidateRegex(spec, value) then FormatError(spec.caption)
      else if key == IdKey && !IsIdUnique(file, value, current) then DuplicateId(value)
      else Accepted
  }

  /** The retry loop from line `from` on: the index of the first line that
      is accepted once stripped. */
  function FirstAccepted(attempts: seq<string>, accept: string -> bool, from: nat): (r: Option<nat>)
    requires from <= |attempts|
    ensures r.Some? ==> from <= r.value < |attempts| && accept(Text.Strip(attempts[r.value]))
    ensures r.Some? ==> forall j :: from <= j < r.value ==> !accept(Text.Strip(attempts[j]))
    ensures r.None? ==> forall j :: from <= j < |attempts| ==> !accept(Text.Strip(attempts[j]))
    decreases |attempts| - from
  {
    if from == |attempts| then None
    else if accept(Text.Strip(attempts[from])) then Some(from)
    else FirstAccepted(attempts, accept, from + 1)
  }

  /** No typed line is accepted once stripped. */
  predicate AllRejected(attempts: seq<string>, accept: string -> bool) {
    forall i :: 0 <= i < |attempts| ==> !accept(Text.Strip(attempts[i]))
  }

  /** Line `i` is the first typed line accepted once stripped. */
  predicate FirstAcceptedAt(attempts: seq<string>, accept: string -> bool, i: int) {
    0 <= i < |attempts| && accept(Text.Strip(attempts[i]))
    && forall j :: 0 <= j < i ==> !accept(Text.Strip(attempts[j]))
  }

  /** `v` is what the retry loop returns for `attempts`: the first typed
      line accepted, stripped. */
  ghost predicate TypedFirst(attempts: seq<string>, accept: string -> bool, v: string) {
    exists i :: FirstAcceptedAt(attempts, accept, i) && v == Text.Strip(attempts[i])
  }

  /** `get_valid_data` fed a finite list of typed lines: each line is
      stripped and offered to `accept`; the first accepted one is the
      result. When every line is rejected the input is exhausted (the
      source would keep prompting) and there is no result. */
  function GetValidData(attempts: seq<string>, accept: string -> bool): (r: Option<string>)
    ensures r.None? <==> AllRejected(attempts, accept)
    ensures r.Some? ==> accept(r.value)
    ensures r.Some? ==> TypedFirst(attempts, accept, r.value)
  {
    match FirstAccepted(attempts, accept, 0)
    case None => None
    case Some(i) =>
      assert FirstAcceptedAt(attempts, accept, i);
      Some(Text.Strip(attempts[i]))
  }

  /** The converse of `GetValidData`'s contract: the first accepted typed
      line, stripped, is what the retry loop returns. */
  lemma GetValidDataTyped(attempts: seq<string>, accept: string -> bool, v: string)
    requires TypedFirst(attempts, accept, v)
    ensures GetValidData(attempts, accept) == Some(v)
  {
    var i :| FirstAcceptedAt(attempts, accept, i) && v == Text.Strip(attempts[i]);
    var r := GetValidData(attempts, accept);
    assert !AllRejected(attempts, accept);
    var j :| FirstAcceptedAt(attempts, accept, j) && r.value == Text.Strip(attempts[j]);
    assert i == j;
  }

  // ---- consequences of the validation order ------------------------------

  /** Only the id field consults the store: for any other key the verdict
      is the same whatever the file holds. */
  lemma UniquenessOnlyForId(f1: File, f2: File, key: string, value: string, current: Option<string>)
    requires key != IdKey
    ensures ValidateField(f1, key, value, current) == ValidateField(f2, key, value, current)
  {
    SchemaOrder();
  }

  /** Re-entering a client's own id during an edit always passes the
      uniqueness check, so only the format decides. */
  lemma OwnIdPasses(file: File, id: string)
    ensures ValidateField(file, IdKey, id, Some(id)) == Accepted <==> ValidId(id)
  {
  }

  /** With no current id (creation), a well-formed id already in the store
      is reported as a duplicate, and one not in the store is accepted. */
  lemma NewIdChecked(file: File, id: string)
    requires ValidId(id)
    ensures ValidateField(file, IdKey, id, None) == DuplicateId(id) <==> HasId(Load(file), id)
    ensures ValidateField(file, IdKey, id, None) == Accepted <==> !HasId(Load(file), id)
  {
  }
}

=== FILE: wrappers.dfy ===
/** The optional value used where the source returns `None` or looks up a
    dictionary key with `dict.get`. */
module Wrappers {

  datatype Option<+T> = None | Some(value: T) {

    /** The wrapped value, or `default` when there is none (`dict.get(k, default)`). */
    function GetOr(default: T): T {
      match this
      case Some(v) => v
      case None => default
    }
  }
}
